=== FILE: README.md ===
# Spotify clone: authentication and playback logic in Dafny

This project models the decision logic of the Spotify clone, a Nuxt/Vue app with Pinia stores. It covers five pieces of code:

- The authentication store: the access token, the refresh token, the profile and the refresh stamp. It also makes the staleness-window decision for the refresh-token grant of section 6 of RFC 6749.
- The `fetchWithToken` wrapper. It refreshes the token before the request, and on a 401 it refreshes once more and sends the request once more.
- The login composable. This covers the random `state` string, the callback of the authorization-code grant (section 4.1 of RFC 6749), the `state` check of sections 4.1.2 and 10.12, and logout.
- The track-URI resolver inside `playTrack`.
- The playback controller of the audio store:
  - `playTrack` and `playPlaylist`, with their not-ready guard, the single pending-request slot, and registration with a bounded retry;
  - status handling for the play command;
  - `setDeviceId`, `ensureDeviceRegistered`, `registerDevice`, `setPlayer` and `$reset`.

Every remote answer is an input:
- the token endpoint's reply;
- the HTTP status of an API call;
- the device ids a device-list response carries;
- the profile from `/v1/me`.

The clock is an integer parameter in milliseconds. `Math.random` becomes an index oracle in `[0, 62)`.

The stores are immutable records, and each action is a pure function from the old record to the new one. In the audio store, a call chain runs on a `Session`: the store record plus the trace of Web API requests sent so far. The answer to the k-th request ever sent is `server(k)`.

The modules:

| file | module | what it holds |
|---|---|---|
| common.dfy | `Common` | null-or-string fields, JavaScript truthiness, the `ok` range of a response, the decimal rendering of a status |
| track_uri.dfy | `TrackUri` | the `/track\/([a-zA-Z0-9]+)/` search (leftmost match, maximal alphanumeric run); the probe chain; an independent priority-list definition it is proved equal to |
| auth_store.dfy | `AuthStore` | `setToken`, `setRefreshToken`, `setUser`, `clearAuth`, `refreshTokenIfNeeded`, and the two getters |
| spotify_api.dfy | `SpotifyApi` | `fetchWithToken`, recording the headers of every request it sends |
| auth_flow.dfy | `AuthFlow` | `generateRandomString`, `handleCallback` and `logout` |
| audio_store.dfy | `AudioStore` | the playback controller |

How the model reads the code:
- **A 404 does not re-send play.** On a 404 the store logs that it is attempting recovery and "Retrying playback (attempt n/3)" (spotify-clone/stores/audio.js:302 and :307), which reads as a second play command. But it sets `isReady = false` before the retry. The retry therefore meets the not-ready guard and parks the request in the slot, and no second play command is sent. `AudioStore.NotFoundQueuesInsteadOfResending` proves what the code does.
- **No forced refresh after a 401.** The call after a 401 passes `true` to `refreshTokenIfNeeded`, but that function takes no parameter. The same staleness test applies, so a token younger than fifty minutes is re-sent unchanged.
- **No 403 case for playlists.** Only `playTrack` has one. A playlist reports `Playback error: 403`.
- **`registerDevice` checks the list first.** It returns true without any transfer when the device is already listed.

## Model

| member | source | states |
|---|---|---|
| Common.DecimalRoundTrip | spotify-clone/stores/audio.js:317 | the decimal text of a status inside an error message reads back as that status |
| Common.DecimalStringInjective | spotify-clone/composables/useSpotifyApi.js:48 | different statuses render as different texts |
| TrackUri.Capture | spotify-clone/stores/audio.js:207 | the capture group is absent iff `track/` followed by an alphanumeric occurs nowhere; otherwise it is the maximal alphanumeric run after the leftmost such occurrence |
| TrackUri.CaptureUnique | spotify-clone/stores/audio.js:226 | any run that sits at the leftmost occurrence and is maximal is exactly what the search captures |
| TrackUri.PlaylistItemResolvesAsTrack | spotify-clone/stores/audio.js:186 | a playlist item `{ track: t }` resolves exactly as `t` alone, whatever the item's own fields, and never through a nested fallback |
| TrackUri.Resolve | spotify-clone/stores/audio.js:203-250 | a resolved URI is never empty |
| TrackUri.FirstCandidate | spotify-clone/stores/audio.js:203-250 | the reference order: the chosen source is in the list, yields the chosen URI, and no source before it yields; nothing is found iff no source in the list yields |
| TrackUri.ResolveFollowsPriority | spotify-clone/stores/audio.js:203-250 | the probe chain equals the first yielding source in the order web link, `uri`, `id`, `href`, nested `uri`, nested `id`, nested web link |
| TrackUri.NestedFollowsPriority | spotify-clone/stores/audio.js:233-248 | the nested fallback tries `uri`, then `id`, then the web link, and never `href` |
| TrackUri.ResolveFailsIffNoSource | spotify-clone/stores/audio.js:252-263 | resolution fails exactly when no source yields on its own |
| TrackUri.ResolvedUriShape | spotify-clone/stores/audio.js:204-248 | an explicit `uri` is passed through verbatim; an id-derived URI is `spotify:track:` plus the id; a link-derived one is `spotify:track:` plus a non-empty alphanumeric id |
| TrackUri.ExternalUrlWins | spotify-clone/stores/audio.js:204-212 | a web link whose first `track/<alphanumerics>` is `track/<id>` resolves to `spotify:track:<id>` whatever `uri` and `id` say |
| TrackUri.UriBeatsId | spotify-clone/stores/audio.js:214-222 | without a usable web link, an explicit `uri` wins over `id` |
| TrackUri.WebLinkExample | spotify-clone/stores/audio.js:204-212 | `https://open.spotify.com/track/abc123` resolves to `spotify:track:abc123` |
| TrackUri.ResolveIdempotent | spotify-clone/stores/audio.js:214-217 | a record carrying only a resolved URI resolves to that same URI |
| AuthStore.SetToken | spotify-clone/stores/auth.js:13-16 | the token is stored and stamped with the current time; nothing else changes |
| AuthStore.SetRefreshToken | spotify-clone/stores/auth.js:18-20 | only the refresh token changes |
| AuthStore.SetUser | spotify-clone/stores/auth.js:22-24 | only the profile changes, so authentication, token validity and the refresh decision are the same before and after |
| AuthStore.ClearAuth | spotify-clone/stores/auth.js:26-31 | all four fields are null, so the store is neither authenticated nor valid at any time |
| AuthStore.RefreshTokenIfNeeded | spotify-clone/stores/auth.js:33-66 | a request is made iff the token is older than 50 minutes and a refresh token is held; with no request nothing changes and the result is true; a failed refresh clears everything and returns false; a successful one stamps the new token, replaces the refresh token only if one came, and keeps the user |
| AuthStore.UnstampedTokenIsStale | spotify-clone/stores/auth.js:35-36 | a missing stamp counts as time 0, so a held refresh token forces a refresh |
| AuthStore.RefreshWindowOverlapsValidity | spotify-clone/stores/auth.js:71-75 | a token aged between 50 and 60 minutes is both valid and due for refresh |
| AuthStore.FreshTokenUntouched | spotify-clone/stores/auth.js:35-36 | a token no older than 50 minutes gives true, no request and an unchanged store |
| AuthStore.SuccessfulRefreshIsValid | spotify-clone/stores/auth.js:54-58 | a refresh that delivers an access token leaves a valid, authenticated store that is not due again |
| AuthStore.ValidImpliesAuthenticated | spotify-clone/stores/auth.js:70-75 | a valid token is an authenticated one younger than an hour |
| SpotifyApi.MessageIdentifiesError | spotify-clone/composables/useSpotifyApi.js:10-48 | the three thrown texts are distinct, and a failed request's text determines its status |
| SpotifyApi.FetchWithToken | spotify-clone/composables/useSpotifyApi.js:6-56 | a failed pre-refresh throws before any request; at most two requests and two refresh calls, the second of each iff the first got a 401; caller headers override the bearer token on the first request; the re-send carries the refreshed bearer token over the caller's; ok responses are returned unchanged and others throw with their status; a rejected `fetch` on either request is rethrown unchanged |
| SpotifyApi.RetryResendsRejectedToken | spotify-clone/composables/useSpotifyApi.js:26-38 | with a token still younger than 50 minutes, the re-send after a 401 carries the rejected bearer token again |
| SpotifyApi.SecondRefreshNeedsElapsedTime | spotify-clone/composables/useSpotifyApi.js:28 | if the clock has not moved, the refresh after a 401 sends no request and changes nothing |
| AuthFlow.AlphabetIsAlphanumeric | spotify-clone/composables/useAuth.js:10 | the alphabet has 62 characters, all letters or digits |
| AuthFlow.GenerateRandomString | spotify-clone/composables/useAuth.js:9-16 | exactly `length` characters (none for a length of 0 or less), the i-th being the alphabet entry at the i-th drawn index |
| AuthFlow.MessageIdentifiesError | spotify-clone/composables/useAuth.js:56-82 | the three texts the callback throws itself are distinct |
| AuthFlow.HandleCallback | spotify-clone/composables/useAuth.js:51-100 | success iff the state matches, a code is present, the exchange returns an access token, the profile loads and the navigation to `/` resolves; any failure clears the store, a rejected navigation after an otherwise successful callback included; a mismatch keeps the saved state and exchanges nothing; no code means no exchange; success stamps the token, stores the refresh token only if present, and stores the profile |
| AuthFlow.EchoedStateAcceptedOnce | spotify-clone/composables/useAuth.js:54-58 | the echoed state passes once, and delivering the same redirect again fails the state check |
| AuthFlow.Logout | spotify-clone/composables/useAuth.js:116-119 | token, refresh token, user and stamp are all null, so the store is unauthenticated |
| AudioStore.RegisterDevice | spotify-clone/stores/audio.js:39-90 | true iff the device list loads and either lists the device or the transfer succeeds; a transfer is sent only for an unlisted device |
| AudioStore.EnsureDeviceRegistered | spotify-clone/stores/audio.js:92-144 | false with no request without a device id or readiness; a listed device's answer is the transfer's success; an unlisted one's is `registerDevice`'s; never a play command, at most three requests |
| AudioStore.PlaybackErrorNamesStatus | spotify-clone/stores/audio.js:317 | the `Playback error` message determines its status |
| AudioStore.Dispatch | spotify-clone/stores/audio.js:283-320 | exactly one play command for the request; 2xx starts playback; a retry happens iff the answer is a 404 with the counter below 3, and leaves the device not ready; a 404 with the counter spent gives `Failed to register device…` and not ready; a track's 403 gives the Premium message; any other non-2xx gives `Playback error: <status>`; a rejected fetch gives `Error playing track`/`Error playing playlist` |
| AudioStore.Attempt | spotify-clone/stores/audio.js:267-320 | at most four requests and one play command, and that command fits the request; a retry leaves the counter and accepted nothing; a finished attempt clears the error iff its play command got a 2xx, and `Failed to register device…` leaves the device not ready with the counter spent |
| AudioStore.AttemptCases | spotify-clone/stores/audio.js:267-320 | failed registration retries while the counter is below 3 and otherwise gives `Failed to register device…` and not ready; a missing playlist throws before any play command; a registered attempt is the play command's outcome |
| AudioStore.RejectedChainExhaustsBudget | spotify-clone/stores/audio.js:267-279 | when every request is rejected, a chain from counter c makes exactly 4 - c attempts (one if the counter is spent), each a single device-list request, then gives up with the counter at 3 and the device not ready |
| AudioStore.Play | spotify-clone/stores/audio.js:146-345 | the trace only grows, by at most 4 requests per remaining attempt, with at most one play command carrying the resolved URI or playlist context; the counter stays within 3 and only rises or resets to 0, and it resets only on success; the error is cleared iff a play command got a 2xx; the not-ready guard only fills the slot and sets the message; a missing token or URI fails before any request; giving up leaves the counter spent and the device not ready |
| AudioStore.NotFoundQueuesInsteadOfResending | spotify-clone/stores/audio.js:301-310 | after a 404 the retry parks the request in the slot and the play command is sent once only |
| AudioStore.ForbiddenIsFinal | spotify-clone/stores/audio.js:314-318 | a 403 gives the Premium message for a track and `Playback error: 403` for a playlist, with no retry |
| AudioStore.OtherStatusIsReported | spotify-clone/stores/audio.js:314-319 | any non-2xx answer other than 404 and a track's 403 ends the chain with `Playback error: <status>` and nothing else changed |
| AudioStore.RejectedPlayIsReported | spotify-clone/stores/audio.js:341-344 | a rejected play command ends the chain with `Error playing track` or `Error playing playlist`, without retry |
| AudioStore.NotFoundWhenSpentGivesUp | spotify-clone/stores/audio.js:301-313 | a 404 with the counter at 3 gives `Failed to register device…` and marks the device not ready |
| AudioStore.RegistrationWhenSpentGivesUp | spotify-clone/stores/audio.js:267-279 | failing registration with the counter at 3 gives `Failed to register device…`, marks the device not ready and sends no play command |
| AudioStore.ListedDeviceStartsPlayback | spotify-clone/stores/audio.js:92-139 | a listed device is sent list, transfer and play, and playback starts |
| AudioStore.NewerRequestReplacesOlder | spotify-clone/stores/audio.js:157-162 | while not ready, a second request replaces the first in the single slot and nothing is sent |
| AudioStore.QueuedRequestReplayedOnce | spotify-clone/stores/audio.js:355-375 | the parked request is replayed exactly once when the device arrives; if playback starts, the slot is empty |
| AudioStore.SpentCounterStaysSpent | spotify-clone/stores/audio.js:270-279 | giving up leaves the counter at 3 and `$reset` keeps it; after the device is reported again, the next chain that cannot register gives up at once, with no retry and at most three requests |
| AudioStore.PlaylistIgnoresToken | spotify-clone/stores/audio.js:425-437 | the playlist chain, retries included, is the same whatever the access token is, since `playPlaylist` has no token check |
| AudioStore.PlayTrack | spotify-clone/stores/audio.js:150-154 | no track means `No track provided` and nothing else |
| AudioStore.PlayPlaylist | spotify-clone/stores/audio.js:417-501 | the shared chain without an auth-token check, keeping the counter within 3; once started, the store holds the playlist at the requested offset (0 by default) |
| AudioStore.SetDeviceId | spotify-clone/stores/audio.js:347-382 | the device id is stored, the store becomes ready with no error, and a pending request is removed from the slot and replayed once |
| AudioStore.SetPlayer | spotify-clone/stores/audio.js:29-37 | the player is stored and the counter is reset to 0; nothing else changes |
| AudioStore.Reset | spotify-clone/stores/audio.js:586-606 | every field returns to its initial value except the retry counter, which is kept |

## Left out

- spotify-clone/composables/useSpotifyPlayer.js: SDK script injection, DOM access and SDK listeners. Its token callback only returns the stored token, so there is no refresh-and-reconnect logic to model.
- The blog app (its two fetch-and-log composables and its route table): no logic.
- HTTP, JSON parsing, `URLSearchParams`, `btoa` and the login redirect URL. Replies are abstract values. `login` is not modelled beyond the `state` string it saves.
- A device-list body without a `devices` array makes the code throw and return false. The model folds this into a failed list response.
- A `null` entry in the device list that would match a `null` device id is not modelled. `registerDevice` is only reached with a device id present.
- An unreadable JSON body, whether from the token endpoint or from an error response, is folded into the failure it leads to.
- `Date.now()` is the parameter `now`. `refreshTokenIfNeeded` reads the clock once and uses that value both for the staleness test and for the new stamp.
- The one-second `setTimeout` before a retry is a plain step.
- Concurrency: overlapping `playTrack` chains are not modelled. The un-awaited replay in `setDeviceId` runs to completion within the call.
- Console logging, Pinia persistence, the `initializationTimeout` handle, and the proxy unwrapping of `__v_raw`. The raw track is the input.
- `pauseTrack`, `resumeTrack`, `togglePlay`, `seek`, `setVolume`, next/previous and `updateFromPlayerState`: thin SDK forwarders.
- The track's `artists`, `album` and `currentImage` are not stored. Only its id, name and URI are.
- The Authorization headers of the audio store's own requests. Only `fetchWithToken` records headers.
- Header names are compared exactly. The Fetch standard's case-insensitive header names are not modelled.
- `router.push('/login')` in logout is navigation, not state: it is not awaited and nothing depends on its outcome. The callback's `router.push('/')` is modelled only as whether it resolves, because a rejection clears the store (useAuth.js:93-98); the route itself is not modelled.
- SpotifyApi.FetchWithToken: the model has one "no token" value and renders it as `Bearer null`. A token endpoint that answers 2xx without `access_token` makes the source store `undefined`, and the request then carries `Bearer undefined`. The contract's header text is wrong for that case.
- AuthFlow.HandleCallback: `route.query.state` given as an array, where `toString()` would join it, is not modelled. The state is a single string or absent.

=== FILE: audio_store.dfy ===
/** The playback store (spotify-clone/stores/audio.js): device registration
    with the Spotify Connect API, the single pending-request slot used while
    the Web Playback SDK is not ready, and the bounded retry of `playTrack`
    and `playPlaylist`. Each call chain runs to completion on its own; the
    requests it sends are appended to a trace, and the answer to the k-th
    request ever sent is `server(k)`. The one-second pause before a retry is
    a plain step. */
module AudioStore {
  import opened Common
  import opened TrackUri

  /** The SDK player object; only whether one is held matters. */
  type PlayerHandle = nat

  datatype Playlist = Playlist(id: string)

  /** What the store remembers of the track it started. */
  datatype CurrentTrack = CurrentTrack(id: Option<string>, name: Option<string>, uri: string)

  /** A play request; this is also what the pending slot holds. */
  datatype PlayRequest =
    | TrackRequest(track: TrackLike)
    | PlaylistRequest(playlist: Option<Playlist>, startIndex: int)

  datatype AudioState = AudioState(
    player: Option<PlayerHandle>,
    deviceId: Option<string>,
    currentTrack: Option<CurrentTrack>,
    isPlaying: bool,
    volume: real,
    currentTime: real,
    duration: real,
    currentPlaylist: Option<Playlist>,
    currentPlaylistIndex: int,
    error: Option<string>,
    isReady: bool,
    pendingPlayRequest: Option<PlayRequest>,
    playbackRetryCount: nat)

  const Initial: AudioState :=
    AudioState(None, None, None, false, 1.0, 0.0, 0.0, None, 0, None, false, None, 0)

  /** Retries allowed before a chain gives up. */
  const MaxRetries: nat := 3

  const NoTrackMsg: string := "No track provided"
  const QueuedTrackMsg: string := "Player initializing... Please wait."
  const QueuedPlaylistMsg: string := "Player initializing..."
  const AuthErrorMsg: string := "Authentication error"
  const UnresolvedMsg: string := "Could not determine track URI"
  const RegistrationFailedMsg: string := "Failed to register device. " + "Please refresh the page."
  const PremiumMsg: string := "Premium account required for playback"
  const TrackExceptionMsg: string := "Error playing track"
  const PlaylistExceptionMsg: string := "Error playing playlist"

  function PlaybackErrorMsg(status: nat): string {
    "Playback error: " + DecimalString(status)
  }

  function QueuedMsg(req: PlayRequest): string {
    if req.TrackRequest? then QueuedTrackMsg else QueuedPlaylistMsg
  }

  function ExceptionMsg(req: PlayRequest): string {
    if req.TrackRequest? then TrackExceptionMsg else PlaylistExceptionMsg
  }

  /** The playback counter never passes the retry limit. */
  predicate Valid(a: AudioState) {
    a.playbackRetryCount <= MaxRetries
  }

  // ---------------------------------------------------------------------
  // Requests, replies and the trace
  // ---------------------------------------------------------------------

  /** The Web API requests this store sends: the device list, a playback
      transfer (`device_ids: [deviceId], play: false`), and the play command
      with `uris: [uri]` or with a playlist context and offset. */
  datatype Request =
    | ListDevices
    | TransferPlayback(deviceId: Option<string>)
    | PlayUris(device: string, uri: string)
    | PlayContext(device: string, contextUri: string, position: int)

  predicate IsPlayCommand(req: Request) {
    req.PlayUris? || req.PlayContext?
  }

  /** A rejected `fetch` (or an unreadable body), or a response with its
      status and, for the device list, the ids it lists. */
  datatype Reply = FetchRejected | Response(status: nat, deviceIds: seq<string>)

  /** The answer to the k-th request. */
  type Server = nat -> Reply

  predicate Succeeded(reply: Reply) {
    reply.Response? && IsOk(reply.status)
  }

  /** `devices.devices.find(d => d.id === this.deviceId)` found something. */
  predicate Listed(deviceId: Option<string>, reply: Reply) {
    reply.Response? && deviceId.Some? && deviceId.value in reply.deviceIds
  }

  datatype Session = Session(store: AudioState, sent: seq<Request>)

  /** Send one request and receive the answer for its position in the trace. */
  function Send(s: Session, req: Request, server: Server): (r: (Reply, Session))
  {
    (server(|s.sent|), s.(sent := s.sent + [req]))
  }

  /** The boolean a registration step returns, with the session after it. */
  datatype Check = Check(ok: bool, session: Session)

  // ---------------------------------------------------------------------
  // Device registration
  // ---------------------------------------------------------------------

  /** `registerDevice`: list the devices; if ours is missing, transfer
      playback to it. True when it is listed or the transfer succeeds. */
  function RegisterDevice(s: Session, server: Server): (r: Check)
    ensures r.session.store == s.store
    ensures r.ok <==>
      Succeeded(server(|s.sent|)) &&
      (Listed(s.store.deviceId, server(|s.sent|)) || Succeeded(server(|s.sent| + 1)))
    ensures r.session.sent ==
      s.sent + (if Succeeded(server(|s.sent|)) && !Listed(s.store.deviceId, server(|s.sent|))
                then [ListDevices, TransferPlayback(s.store.deviceId)]
                else [ListDevices])
  {
    var (list, s1) := Send(s, ListDevices, server);
    if !Succeeded(list) then Check(false, s1)
    else if Listed(s.store.deviceId, list) then Check(true, s1)
    else
      var (transfer, s2) := Send(s1, TransferPlayback(s.store.deviceId), server);
      Check(Succeeded(transfer), s2)
  }

  /** `ensureDeviceRegistered`. */
  function EnsureDeviceRegistered(s: Session, server: Server): (r: Check)
    ensures r.session.store == s.store
    // no device id or not ready: false, and nothing is sent
    ensures !Present(s.store.deviceId) || !s.store.isReady ==> r == Check(false, s)
    // otherwise the device list is asked for first
    ensures Present(s.store.deviceId) && s.store.isReady ==>
      |r.session.sent| > |s.sent| && r.session.sent[|s.sent|] == ListDevices
    ensures Present(s.store.deviceId) && s.store.isReady && !Succeeded(server(|s.sent|)) ==>
      !r.ok && r.session.sent == s.sent + [ListDevices]
    // listed: the answer is whether re-asserting the transfer succeeded
    ensures Present(s.store.deviceId) && s.store.isReady && Succeeded(server(|s.sent|))
            && Listed(s.store.deviceId, server(|s.sent|)) ==>
      r.session.sent == s.sent + [ListDevices, TransferPlayback(s.store.deviceId)]
      && r.ok == Succeeded(server(|s.sent| + 1))
    // not listed: the answer is `registerDevice`'s
    ensures Present(s.store.deviceId) && s.store.isReady && Succeeded(server(|s.sent|))
            && !Listed(s.store.deviceId, server(|s.sent|)) ==>
      r == RegisterDevice(s.(sent := s.sent + [ListDevices]), server)
    // registration never sends a play command and sends at most three requests
    ensures s.sent <= r.session.sent && |r.session.sent| <= |s.sent| + 3
    ensures forall k :: |s.sent| <= k < |r.session.sent| ==> !IsPlayCommand(r.session.sent[k])
  {
    if !Present(s.store.deviceId) || !s.store.isReady then Check(false, s)
    else
      var (list, s1) := Send(s, ListDevices, server);
      if !Succeeded(list) then Check(false, s1)
      else if !Listed(s.store.deviceId, list) then RegisterDevice(s1, server)
      else
        var (transfer, s2) := Send(s1, TransferPlayback(s.store.deviceId), server);
        Check(Succeeded(transfer), s2)
  }

  // ---------------------------------------------------------------------
  // Playing
  // ---------------------------------------------------------------------

  /** The not-ready guard shared by `playTrack` and `playPlaylist`. */
  predicate NotReady(a: AudioState) {
    !a.isReady || a.player.None? || !Present(a.deviceId)
  }

  /** The guard's only effect: the request takes the single slot. */
  function Queue(a: AudioState, req: PlayRequest): AudioState {
    a.(pendingPlayRequest := Some(req), error := Some(QueuedMsg(req)))
  }

  /** The store reports `msg`; nothing else changes. */
  function WithError(s: Session, msg: string): Session {
    s.(store := s.store.(error := Some(msg)))
  }

  function Bump(s: Session): Session {
    s.(store := s.store.(playbackRetryCount := s.store.playbackRetryCount + 1))
  }

  const PlaylistUriPrefix: string := "spotify:playlist:"

  /** The store after a 2xx answer to the play command. */
  function Started(a: AudioState, req: PlayRequest, uri: string): AudioState {
    match req
    case TrackRequest(t) =>
      var n := Normalize(t);
      var nestedId := if n.track.Some? then n.track.value.id else None;
      var nestedName := if n.track.Some? then n.track.value.name else None;
      a.(playbackRetryCount := 0,
         currentTrack := Some(CurrentTrack(Or(n.id, nestedId), Or(n.name, nestedName), uri)),
         isPlaying := true,
         currentPlaylist := None,
         currentPlaylistIndex := 0,
         error := None)
    case PlaylistRequest(playlist, startIndex) =>
      a.(playbackRetryCount := 0,
         currentPlaylist := playlist,
         currentPlaylistIndex := startIndex,
         isPlaying := true,
         error := None)
  }

  /** Attempts a chain may still make with this counter value. */
  function AttemptBudget(retryCount: nat): nat {
    if retryCount < MaxRetries then MaxRetries + 1 - retryCount else 1
  }

  /** Among the requests from index `from` on, at most one is a play command. */
  predicate AtMostOnePlay(sent: seq<Request>, from: nat) {
    forall k1, k2 :: from <= k1 < k2 < |sent| ==> !(IsPlayCommand(sent[k1]) && IsPlayCommand(sent[k2]))
  }

  /** No request from index `from` on is a play command. */
  predicate NoPlay(sent: seq<Request>, from: nat) {
    forall k :: from <= k < |sent| ==> !IsPlayCommand(sent[k])
  }

  /** From index `from` on, some play command was answered with a 2xx. */
  predicate PlayAccepted(sent: seq<Request>, from: nat, server: Server) {
    exists k :: from <= k < |sent| && IsPlayCommand(sent[k]) && Succeeded(server(k))
  }

  /** Every play command from index `from` on is the one `req` calls for on
      `device`: the resolved track URI, or the playlist context at its offset. */
  predicate CommandsFit(sent: seq<Request>, from: nat, req: PlayRequest, device: Option<string>) {
    forall k :: from <= k < |sent| && IsPlayCommand(sent[k]) ==>
      device.Some? && sent[k].device == device.value &&
      match req
      case TrackRequest(t) =>
        Resolve(t).Some? && sent[k] == PlayUris(device.value, Resolve(t).value.uri)
      case PlaylistRequest(p, start) =>
        p.Some? && sent[k] == PlayContext(device.value, PlaylistUriPrefix + p.value.id, start)
  }

  /** The request in the slot stays what it was, or becomes this one. */
  predicate SlotKept(before: AudioState, after: AudioState, req: PlayRequest) {
    after.pendingPlayRequest == before.pendingPlayRequest || after.pendingPlayRequest == Some(req)
  }

  /** The fields a play chain never writes. */
  predicate IdentityKept(before: AudioState, after: AudioState) {
    && after.player == before.player
    && after.deviceId == before.deviceId
    && after.volume == before.volume
    && after.currentTime == before.currentTime
    && after.duration == before.duration
  }

  /** What a successful start records. */
  predicate StartedWith(a: AudioState, req: PlayRequest) {
    && a.error.None? && a.isPlaying && a.playbackRetryCount == 0
    && match req
       case TrackRequest(t) =>
         Resolve(t).Some? && a.currentTrack.Some? && a.currentTrack.value.uri == Resolve(t).value.uri
         && a.currentPlaylist.None? && a.currentPlaylistIndex == 0
       case PlaylistRequest(p, start) =>
         a.currentPlaylist == p && a.currentPlaylistIndex == start
  }

  lemma PlaybackErrorIsNotRegistrationFailure(status: nat)
    ensures PlaybackErrorMsg(status) != RegistrationFailedMsg
  {
    assert PlaybackErrorMsg(status)[0] == "Playback error: "[0] == 'P';
    assert RegistrationFailedMsg[0] == 'F';
  }

  /** The reported message determines the status that caused it. */
  lemma PlaybackErrorNamesStatus(m: nat, n: nat)
    requires PlaybackErrorMsg(m) == PlaybackErrorMsg(n)
    ensures m == n
  {
    var prefix := "Playback error: ";
    assert PlaybackErrorMsg(m)[|prefix|..] == DecimalString(m);
    assert PlaybackErrorMsg(n)[|prefix|..] == DecimalString(n);
    DecimalStringInjective(m, n);
  }

  /** One attempt once the guards have passed: `Finished` with the session the
      call ends in, or `Retry` when the counter allows another round. */
  datatype AttemptResult = Finished(session: Session) | Retry(session: Session)

  /** The play command for `req` on `device`, once the request is known to
      carry a URI or a playlist. */
  function Command(req: PlayRequest, device: string): (r: Request)
    requires req.TrackRequest? ==> Resolve(req.track).Some?
    requires req.PlaylistRequest? ==> req.playlist.Some?
    ensures IsPlayCommand(r) && r.device == device
    ensures CommandsFit([r], 0, req, Some(device))
  {
    match req
    case TrackRequest(t) => PlayUris(device, Resolve(t).value.uri)
    case PlaylistRequest(p, start) => PlayContext(device, PlaylistUriPrefix + p.value.id, start)
  }

  /** The play command and its status handling: 2xx starts playback, 404
      marks the device not ready and asks for a retry while the counter
      allows, 403 on a track needs Premium, anything else is reported. */
  function Dispatch(s: Session, req: PlayRequest, server: Server): (r: AttemptResult)
    requires !NotReady(s.store)
    requires req.TrackRequest? ==> Resolve(req.track).Some?
    requires req.PlaylistRequest? ==> req.playlist.Some?
    ensures |r.session.sent| == |s.sent| + 1
    ensures r.session.sent == s.sent + [Command(req, s.store.deviceId.value)]
    ensures IdentityKept(s.store, r.session.store)
    ensures r.session.store.pendingPlayRequest == s.store.pendingPlayRequest
    // a retry follows a 404 only, while the counter is below the limit
    ensures r.Retry? <==>
      server(|s.sent|).Response? && server(|s.sent|).status == 404
      && s.store.playbackRetryCount < MaxRetries
    ensures r.Retry? ==> r.session.store == s.store.(isReady := false)
    // every other answer finishes the chain with its own message
    ensures server(|s.sent|).FetchRejected? ==>
      r.Finished? && r.session.store == s.store.(error := Some(ExceptionMsg(req)))
    ensures server(|s.sent|).Response? && server(|s.sent|).status == 404
            && s.store.playbackRetryCount >= MaxRetries ==>
      r.Finished? && r.session.store == s.store.(isReady := false, error := Some(RegistrationFailedMsg))
    ensures server(|s.sent|).Response? && server(|s.sent|).status == 403 && req.TrackRequest? ==>
      r.Finished? && r.session.store == s.store.(error := Some(PremiumMsg))
    ensures server(|s.sent|).Response? && !IsOk(server(|s.sent|).status)
            && server(|s.sent|).status != 404
            && !(server(|s.sent|).status == 403 && req.TrackRequest?) ==>
      r.Finished? && r.session.store == s.store.(error := Some(PlaybackErrorMsg(server(|s.sent|).status)))
    ensures r.Finished? ==>
      && (r.session.store.error.None? <==> Succeeded(server(|s.sent|)))
      && (r.session.store.error.None? ==> StartedWith(r.session.store, req))
      && (r.session.store.error.Some? ==> r.session.store.playbackRetryCount == s.store.playbackRetryCount)
      && (r.session.store.error == Some(RegistrationFailedMsg) ==>
            !r.session.store.isReady && r.session.store.playbackRetryCount >= MaxRetries)
  {
    var uri := if req.TrackRequest? then Resolve(req.track).value.uri else "";
    var (reply, s2) := Send(s, Command(req, s.store.deviceId.value), server);
    match reply
    case FetchRejected => Finished(WithError(s2, ExceptionMsg(req)))
    case Response(status, _) =>
      if IsOk(status) then Finished(s2.(store := Started(s2.store, req, uri)))
      else if status == 404 then
        var s3 := s2.(store := s2.store.(isReady := false));
        if s.store.playbackRetryCount < MaxRetries then Retry(s3)
        else Finished(WithError(s3, RegistrationFailedMsg))
      else if status == 403 && req.TrackRequest? then Finished(WithError(s2, PremiumMsg))
      else
        PlaybackErrorIsNotRegistrationFailure(status);
        Finished(WithError(s2, PlaybackErrorMsg(status)))
  }

  /** A trace segment without play commands fits any request and has no
      play command accepted. */
  lemma NoPlayTrace(sent: seq<Request>, from: nat, req: PlayRequest, device: Option<string>, server: Server)
    requires forall k :: from <= k < |sent| ==> !IsPlayCommand(sent[k])
    ensures NoPlay(sent, from) && AtMostOnePlay(sent, from) && CommandsFit(sent, from, req, device)
    ensures !PlayAccepted(sent, from, server)
  { }

  /** Registration requests followed by one play command: that command is
      the only one, and it was accepted exactly when its answer was a 2xx. */
  lemma AppendPlay(sent: seq<Request>, from: nat, cmd: Request, req: PlayRequest,
                   device: Option<string>, server: Server)
    requires from <= |sent|
    requires forall k :: from <= k < |sent| ==> !IsPlayCommand(sent[k])
    requires IsPlayCommand(cmd) && CommandsFit([cmd], 0, req, device)
    ensures AtMostOnePlay(sent + [cmd], from) && CommandsFit(sent + [cmd], from, req, device)
    ensures PlayAccepted(sent + [cmd], from, server) <==> Succeeded(server(|sent|))
  {
    var whole := sent + [cmd];
    assert whole[|sent|] == cmd;
    assert forall k :: from <= k < |sent| ==> whole[k] == sent[k];
  }

  /** One attempt: registration, then the play command. */
  function Attempt(s: Session, req: PlayRequest, server: Server): (r: AttemptResult)
    requires !NotReady(s.store)
    requires req.TrackRequest? ==> Resolve(req.track).Some?
    ensures s.sent <= r.session.sent && |r.session.sent| <= |s.sent| + 4
    ensures AtMostOnePlay(r.session.sent, |s.sent|)
    ensures CommandsFit(r.session.sent, |s.sent|, req, s.store.deviceId)
    ensures IdentityKept(s.store, r.session.store)
    ensures r.session.store.pendingPlayRequest == s.store.pendingPlayRequest
    // a retry keeps the counter and nothing was accepted; if a play command
    // went out, the device is marked not ready
    ensures r.Retry? ==>
      && s.store.playbackRetryCount < MaxRetries
      && r.session.store.playbackRetryCount == s.store.playbackRetryCount
      && !PlayAccepted(r.session.sent, |s.sent|, server)
      && (!r.session.store.isReady || NoPlay(r.session.sent, |s.sent|))
      && (r.session.store.isReady ==> r.session.store == s.store)
    ensures r.Finished? ==>
      && (r.session.store.error.None? <==> PlayAccepted(r.session.sent, |s.sent|, server))
      && (r.session.store.error.None? ==> StartedWith(r.session.store, req))
      && (r.session.store.error.Some? ==> r.session.store.playbackRetryCount == s.store.playbackRetryCount)
      && (r.session.store.error == Some(RegistrationFailedMsg) ==>
            !r.session.store.isReady && r.session.store.playbackRetryCount >= MaxRetries)
  {
    var reg := EnsureDeviceRegistered(s, server);
    var s1 := reg.session;
    if !reg.ok || (req.PlaylistRequest? && req.playlist.None?) then
      NoPlayTrace(s1.sent, |s.sent|, req, s.store.deviceId, server);
      if !reg.ok then
        if s.store.playbackRetryCount < MaxRetries then Retry(s1)
        else Finished(s1.(store := s1.store.(error := Some(RegistrationFailedMsg), isReady := false)))
      else
        // `playlist.id` on null throws inside the try
        Finished(WithError(s1, PlaylistExceptionMsg))
    else
      var d := Dispatch(s1, req, server);
      AppendPlay(s1.sent, |s.sent|, Command(req, s.store.deviceId.value), req, s.store.deviceId, server);
      d
  }

  /** What an attempt does after registration: a failed registration asks
      for a retry while the counter allows and otherwise gives up with the
      device not ready; a missing playlist throws before any play command;
      otherwise the play command goes out and its status decides. */
  lemma AttemptCases(s: Session, req: PlayRequest, server: Server)
    requires !NotReady(s.store)
    requires req.TrackRequest? ==> Resolve(req.track).Some?
    ensures var reg := EnsureDeviceRegistered(s, server);
      var r := Attempt(s, req, server);
      && (!reg.ok && s.store.playbackRetryCount < MaxRetries ==> r == Retry(reg.session))
      && (!reg.ok && s.store.playbackRetryCount >= MaxRetries ==>
            && r.Finished?
            && r.session.sent == reg.session.sent
            && r.session.store == s.store.(error := Some(RegistrationFailedMsg), isReady := false))
      && (reg.ok && req.PlaylistRequest? && req.playlist.None? ==>
            r == Finished(WithError(reg.session, PlaylistExceptionMsg)))
      && (reg.ok && (req.PlaylistRequest? ==> req.playlist.Some?) ==>
            r == Dispatch(reg.session, req, server))
  { }

  /** A failed attempt followed by the rest of the chain: the joined trace
      still holds at most one fitting play command, and it was accepted
      exactly when the rest of the chain had it accepted. */
  lemma JoinTraces(first: seq<Request>, whole: seq<Request>, from: nat, req: PlayRequest,
                   device: Option<string>, server: Server)
    requires from <= |first| && first <= whole
    requires AtMostOnePlay(first, from) && CommandsFit(first, from, req, device)
    requires !PlayAccepted(first, from, server)
    requires NoPlay(first, from) || whole == first
    requires AtMostOnePlay(whole, |first|) && CommandsFit(whole, |first|, req, device)
    ensures AtMostOnePlay(whole, from) && CommandsFit(whole, from, req, device)
    ensures PlayAccepted(whole, from, server) <==> PlayAccepted(whole, |first|, server)
  {
    forall k | from <= k < |first|
      ensures whole[k] == first[k]
    {
    }
  }

  /** `playTrack(track)` once the track is known to be truthy, and
      `playPlaylist(playlist, startIndex)`: the not-ready guard, the token
      and URI checks of a track, then attempts until one finishes; a retry
      re-enters with the counter raised by one. `token` is the auth store's
      access token; only a track request looks at it. */
  function Play(s: Session, req: PlayRequest, token: Option<string>, server: Server): (r: Session)
    // bounded chain: a prefix-extended trace, a bounded number of requests
    ensures s.sent <= r.sent
    ensures |r.sent| <= |s.sent| + 4 * AttemptBudget(s.store.playbackRetryCount)
    ensures AtMostOnePlay(r.sent, |s.sent|)
    ensures CommandsFit(r.sent, |s.sent|, req, s.store.deviceId)
    // the retry counter stays within its limit and only rises or resets
    ensures Valid(s.store) ==> Valid(r.store)
    ensures r.store.playbackRetryCount == 0 || r.store.playbackRetryCount >= s.store.playbackRetryCount
    // success, and only success, clears the error; it needs a 2xx to the play command
    ensures r.store.error.None? <==> PlayAccepted(r.sent, |s.sent|, server)
    ensures r.store.error.None? ==>
      StartedWith(r.store, req) && r.store.pendingPlayRequest == s.store.pendingPlayRequest
    ensures r.store.playbackRetryCount < s.store.playbackRetryCount ==> r.store.error.None?
    // not ready: only the slot and the message change
    ensures NotReady(s.store) ==> r == s.(store := Queue(s.store, req))
    ensures SlotKept(s.store, r.store, req) && IdentityKept(s.store, r.store)
    // a track without token or URI fails before any request
    ensures !NotReady(s.store) && req.TrackRequest? && !Present(token) ==>
      r == WithError(s, AuthErrorMsg)
    ensures !NotReady(s.store) && req.TrackRequest? && Present(token) && Resolve(req.track).None? ==>
      r == WithError(s, UnresolvedMsg)
    // giving up on registration leaves the device not ready and the counter spent
    ensures r.store.error == Some(RegistrationFailedMsg) ==>
      !r.store.isReady && r.store.playbackRetryCount >= MaxRetries
    decreases AttemptBudget(s.store.playbackRetryCount)
  {
    var a := s.store;
    if NotReady(a) then s.(store := Queue(a, req))
    else if req.TrackRequest? && !Present(token) then WithError(s, AuthErrorMsg)
    else if req.TrackRequest? && Resolve(req.track).None? then WithError(s, UnresolvedMsg)
    else
      match Attempt(s, req, server)
      case Finished(done) => done
      case Retry(s1) =>
        var r := Play(Bump(s1), req, token, server);
        JoinTraces(s1.sent, r.sent, |s.sent|, req, a.deviceId, server);
        r
  }

  /** After a 404 the device is marked not ready before the retry, so the
      retry meets the not-ready guard: the request is parked in the slot and
      the play command is not sent again. */
  lemma NotFoundQueuesInsteadOfResending(s: Session, req: PlayRequest, token: Option<string>, server: Server)
    requires !NotReady(s.store) && s.store.playbackRetryCount < MaxRetries
    requires req.TrackRequest? ==> Present(token) && Resolve(req.track).Some?
    requires req.PlaylistRequest? ==> req.playlist.Some?
    requires EnsureDeviceRegistered(s, server).ok
    requires server(|EnsureDeviceRegistered(s, server).session.sent|).Response?
    requires server(|EnsureDeviceRegistered(s, server).session.sent|).status == 404
    ensures var r := Play(s, req, token, server);
      var registered := EnsureDeviceRegistered(s, server).session;
      && r.sent == registered.sent + [Command(req, s.store.deviceId.value)]
      && r.store.pendingPlayRequest == Some(req)
      && r.store.error == Some(QueuedMsg(req))
      && !r.store.isReady
      && r.store.playbackRetryCount == s.store.playbackRetryCount + 1
  {
    var registered := EnsureDeviceRegistered(s, server).session;
    var d := Dispatch(registered, req, server);
    assert d == Retry(registered.(sent := registered.sent + [Command(req, s.store.deviceId.value)],
                                  store := s.store.(isReady := false)));
    assert Attempt(s, req, server) == d;
  }

  /** A 403 on a track means no Premium account: reported, never retried.
      A playlist has no such case and reports the bare status. */
  lemma ForbiddenIsFinal(s: Session, req: PlayRequest, token: Option<string>, server: Server)
    requires !NotReady(s.store)
    requires req.TrackRequest? ==> Present(token) && Resolve(req.track).Some?
    requires req.PlaylistRequest? ==> req.playlist.Some?
    requires EnsureDeviceRegistered(s, server).ok
    requires server(|EnsureDeviceRegistered(s, server).session.sent|).Response?
    requires server(|EnsureDeviceRegistered(s, server).session.sent|).status == 403
    ensures var r := Play(s, req, token, server);
      && |r.sent| == |EnsureDeviceRegistered(s, server).session.sent| + 1
      && r.store.error == Some(if req.TrackRequest? then PremiumMsg else PlaybackErrorMsg(403))
      && r.store.playbackRetryCount == s.store.playbackRetryCount
      && r.store.isReady
  {
    var registered := EnsureDeviceRegistered(s, server).session;
    assert Attempt(s, req, server) == Dispatch(registered, req, server);
  }

  /** Any other non-2xx answer (500, 401, a playlist's 403, ...) is reported
      with its status, and the chain ends without a retry. */
  lemma OtherStatusIsReported(s: Session, req: PlayRequest, token: Option<string>, server: Server)
    requires !NotReady(s.store)
    requires req.TrackRequest? ==> Present(token) && Resolve(req.track).Some?
    requires req.PlaylistRequest? ==> req.playlist.Some?
    requires EnsureDeviceRegistered(s, server).ok
    requires var reply := server(|EnsureDeviceRegistered(s, server).session.sent|);
      reply.Response? && !IsOk(reply.status) && reply.status != 404
      && !(reply.status == 403 && req.TrackRequest?)
    ensures var r := Play(s, req, token, server);
      var registered := EnsureDeviceRegistered(s, server).session;
      && r.sent == registered.sent + [Command(req, s.store.deviceId.value)]
      && r.store == s.store.(error := Some(PlaybackErrorMsg(server(|registered.sent|).status)))
  {
  }

  /** A play command whose `fetch` is rejected lands in the catch block:
      `Error playing track` or `Error playing playlist`, and no retry. */
  lemma RejectedPlayIsReported(s: Session, req: PlayRequest, token: Option<string>, server: Server)
    requires !NotReady(s.store)
    requires req.TrackRequest? ==> Present(token) && Resolve(req.track).Some?
    requires req.PlaylistRequest? ==> req.playlist.Some?
    requires EnsureDeviceRegistered(s, server).ok
    requires server(|EnsureDeviceRegistered(s, server).session.sent|).FetchRejected?
    ensures var r := Play(s, req, token, server);
      && |r.sent| == |EnsureDeviceRegistered(s, server).session.sent| + 1
      && r.store == s.store.(error := Some(ExceptionMsg(req)))
  {
  }

  /** With the counter spent, a 404 gives up at once: the device is marked
      not ready and the user is told to refresh the page. */
  lemma NotFoundWhenSpentGivesUp(s: Session, req: PlayRequest, token: Option<string>, server: Server)
    requires !NotReady(s.store) && s.store.playbackRetryCount >= MaxRetries
    requires req.TrackRequest? ==> Present(token) && Resolve(req.track).Some?
    requires req.PlaylistRequest? ==> req.playlist.Some?
    requires EnsureDeviceRegistered(s, server).ok
    requires server(|EnsureDeviceRegistered(s, server).session.sent|).Response?
    requires server(|EnsureDeviceRegistered(s, server).session.sent|).status == 404
    ensures var r := Play(s, req, token, server);
      && |r.sent| == |EnsureDeviceRegistered(s, server).session.sent| + 1
      && r.store == s.store.(isReady := false, error := Some(RegistrationFailedMsg))
  {
  }

  /** With the counter spent, failing registration gives up at once: no play
      command, the device marked not ready, the user told to refresh. */
  lemma RegistrationWhenSpentGivesUp(s: Session, req: PlayRequest, token: Option<string>, server: Server)
    requires !NotReady(s.store) && s.store.playbackRetryCount >= MaxRetries
    requires req.TrackRequest? ==> Present(token) && Resolve(req.track).Some?
    requires !EnsureDeviceRegistered(s, server).ok
    ensures var r := Play(s, req, token, server);
      && r.sent == EnsureDeviceRegistered(s, server).session.sent
      && NoPlay(r.sent, |s.sent|)
      && r.store == s.store.(isReady := false, error := Some(RegistrationFailedMsg))
  {
  }

  /** A device already listed by the Web API: the list, the re-asserted
      transfer, and one play command, which starts playback. */
  lemma ListedDeviceStartsPlayback(s: Session, req: PlayRequest, token: Option<string>, server: Server)
    requires !NotReady(s.store)
    requires req.TrackRequest? ==> Present(token) && Resolve(req.track).Some?
    requires req.PlaylistRequest? ==> req.playlist.Some?
    requires Succeeded(server(|s.sent|)) && s.store.deviceId.value in server(|s.sent|).deviceIds
    requires Succeeded(server(|s.sent| + 1)) && Succeeded(server(|s.sent| + 2))
    ensures var r := Play(s, req, token, server);
      && r.sent == s.sent + [ListDevices, TransferPlayback(s.store.deviceId), Command(req, s.store.deviceId.value)]
      && StartedWith(r.store, req)
      && r.store.pendingPlayRequest == s.store.pendingPlayRequest
  {
    var registered := EnsureDeviceRegistered(s, server).session;
    assert registered.sent == s.sent + [ListDevices, TransferPlayback(s.store.deviceId)];
    assert Attempt(s, req, server) == Dispatch(registered, req, server);
  }

  /** The slot holds one request: while the player is not ready a newer
      request replaces an older one. */
  lemma NewerRequestReplacesOlder(s: Session, first: PlayRequest, second: PlayRequest,
                                  token: Option<string>, server: Server)
    requires NotReady(s.store)
    ensures var r := Play(Play(s, first, token, server), second, token, server);
      r.sent == s.sent && r.store.pendingPlayRequest == Some(second)
      && r.store == Queue(s.store, second)
  {
  }

  /** A request parked while the player was not ready is replayed exactly
      once when the device id arrives; if that replay starts playback, the
      slot is empty afterwards. */
  lemma QueuedRequestReplayedOnce(s: Session, req: PlayRequest, deviceId: Option<string>,
                                  token: Option<string>, server: Server)
    requires NotReady(s.store)
    ensures var queued := Play(s, req, token, server);
      var r := SetDeviceId(queued, deviceId, token, server);
      var ready := s.store.(deviceId := deviceId, isReady := true, error := None, pendingPlayRequest := None);
      && r == Play(Session(ready, s.sent), req, token, server)
      && AtMostOnePlay(r.sent, |s.sent|)
      && (r.store.error.None? ==> r.store.pendingPlayRequest.None? && StartedWith(r.store, req))
  {
    var queued := Play(s, req, token, server);
    var ready := s.store.(deviceId := deviceId, isReady := true, error := None, pendingPlayRequest := None);
    assert queued.store.(deviceId := deviceId, isReady := true, error := None, pendingPlayRequest := None) == ready;
  }

  /** Giving up on registration does not reset the counter, and neither
      does `$reset`. Once the SDK reports the device again, the next chain
      that cannot register gets no retry at all. */
  lemma SpentCounterStaysSpent(s: Session, req: PlayRequest, token: Option<string>, server: Server,
                               deviceId: Option<string>, next: PlayRequest, nextServer: Server)
    requires Play(s, req, token, server).store.error == Some(RegistrationFailedMsg)
    requires Play(s, req, token, server).store.pendingPlayRequest.None?
    requires Present(deviceId)
    requires next.TrackRequest? ==> Present(token) && Resolve(next.track).Some?
    requires !EnsureDeviceRegistered(SetDeviceId(Play(s, req, token, server), deviceId, token, server), nextServer).ok
    ensures var failed := Play(s, req, token, server);
      var ready := SetDeviceId(failed, deviceId, token, server);
      var r := Play(ready, next, token, nextServer);
      && Reset(failed.store).playbackRetryCount >= MaxRetries
      && r.store.error == Some(RegistrationFailedMsg)
      && r.store.playbackRetryCount >= MaxRetries
      && |r.sent| <= |ready.sent| + 3
  {
  }

  /** `n` copies of the request `x`. */
  function Repeat(x: Request, n: nat): (r: seq<Request>)
    ensures |r| == n && forall i :: 0 <= i < n ==> r[i] == x
  {
    if n == 0 then [] else [x] + Repeat(x, n - 1)
  }

  /** A chain makes at most four attempts. When every request is rejected,
      each attempt is one device-list request, and the chain makes one
      attempt per unit of its budget before it gives up with the counter at
      the limit and the device not ready. */
  lemma {:induction false} RejectedChainExhaustsBudget(s: Session, req: PlayRequest, token: Option<string>,
                                                      server: Server)
    requires !NotReady(s.store) && Valid(s.store)
    requires req.TrackRequest? ==> Present(token) && Resolve(req.track).Some?
    requires forall k :: server(k) == FetchRejected
    ensures var r := Play(s, req, token, server);
      && r.sent == s.sent + Repeat(ListDevices, AttemptBudget(s.store.playbackRetryCount))
      && r.store.error == Some(RegistrationFailedMsg)
      && r.store.playbackRetryCount == MaxRetries
      && !r.store.isReady
    decreases AttemptBudget(s.store.playbackRetryCount)
  {
    AttemptCases(s, req, server);
    var reg := EnsureDeviceRegistered(s, server);
    assert !reg.ok && reg.session.sent == s.sent + [ListDevices];
    if s.store.playbackRetryCount < MaxRetries {
      var next := Bump(reg.session);
      RejectedChainExhaustsBudget(next, req, token, server);
      assert Repeat(ListDevices, AttemptBudget(s.store.playbackRetryCount))
          == [ListDevices] + Repeat(ListDevices, AttemptBudget(next.store.playbackRetryCount));
    } else {
      assert Repeat(ListDevices, 1) == [ListDevices];
    }
  }

  /** `playPlaylist` never consults the access token: the whole chain,
      retries included, comes out the same whatever the token is. */
  lemma {:induction false} PlaylistIgnoresToken(s: Session, playlist: Option<Playlist>, startIndex: int,
                                                t1: Option<string>, t2: Option<string>, server: Server)
    ensures Play(s, PlaylistRequest(playlist, startIndex), t1, server)
         == Play(s, PlaylistRequest(playlist, startIndex), t2, server)
    decreases AttemptBudget(s.store.playbackRetryCount)
  {
    var req := PlaylistRequest(playlist, startIndex);
    if !NotReady(s.store) {
      match Attempt(s, req, server)
      case Finished(_) =>
      case Retry(s1) => PlaylistIgnoresToken(Bump(s1), playlist, startIndex, t1, t2, server);
    }
  }

  /** `playTrack(track)`. */
  function PlayTrack(s: Session, track: Option<TrackLike>, token: Option<string>, server: Server): (r: Session)
    ensures track.None? ==> r == WithError(s, NoTrackMsg)
    ensures track.Some? ==> r == Play(s, TrackRequest(track.value), token, server)
    ensures Valid(s.store) ==> Valid(r.store)
  {
    if track.None? then WithError(s, NoTrackMsg) else Play(s, TrackRequest(track.value), token, server)
  }

  /** `playPlaylist(playlist, startIndex)`; the auth token is not checked. */
  function PlayPlaylist(s: Session, playlist: Option<Playlist>, server: Server, startIndex: int := 0): (r: Session)
    ensures r == Play(s, PlaylistRequest(playlist, startIndex), None, server)
    ensures Valid(s.store) ==> Valid(r.store)
    // once started, the store records the playlist at the requested offset
    ensures r.store.error.None? ==>
      r.store.currentPlaylist == playlist && r.store.currentPlaylistIndex == startIndex && r.store.isPlaying
  {
    Play(s, PlaylistRequest(playlist, startIndex), None, server)
  }

  // ---------------------------------------------------------------------
  // Player lifecycle
  // ---------------------------------------------------------------------

  /** `setDeviceId`: the SDK reported a device. The store becomes ready and
      the pending request, if any, is taken out of the slot and replayed once. */
  function SetDeviceId(s: Session, deviceId: Option<string>, token: Option<string>, server: Server): (r: Session)
    ensures r.store.deviceId == deviceId
    ensures s.store.pendingPlayRequest.None? ==>
      r.sent == s.sent && r.store == s.store.(deviceId := deviceId, isReady := true, error := None)
    ensures s.store.pendingPlayRequest.Some? ==>
      var ready := s.store.(deviceId := deviceId, isReady := true, error := None, pendingPlayRequest := None);
      r == Play(s.(store := ready), s.store.pendingPlayRequest.value, token, server)
    ensures r.store.pendingPlayRequest.None? || r.store.pendingPlayRequest == s.store.pendingPlayRequest
    ensures AtMostOnePlay(r.sent, |s.sent|)
    ensures Valid(s.store) ==> Valid(r.store)
  {
    var ready := s.store.(deviceId := deviceId, isReady := true, error := None);
    match s.store.pendingPlayRequest
    case None => s.(store := ready)
    case Some(req) => Play(s.(store := ready.(pendingPlayRequest := None)), req, token, server)
  }

  /** `setPlayer`: a new SDK player; the retry counter starts over. */
  function SetPlayer(a: AudioState, player: Option<PlayerHandle>): (r: AudioState)
    ensures r.player == player && r.playbackRetryCount == 0 && Valid(r)
    ensures r.(player := a.player, playbackRetryCount := a.playbackRetryCount) == a
  {
    a.(player := player, playbackRetryCount := 0)
  }

  /** `$reset`: every field back to its initial value except the retry
      counter, which is left as it was. */
  function Reset(a: AudioState): (r: AudioState)
    ensures r.player.None? && r.deviceId.None? && !r.isReady && r.pendingPlayRequest.None?
    ensures r.error.None? && r.currentTrack.None? && !r.isPlaying && r.currentPlaylist.None?
    ensures r.volume == 1.0 && r.currentTime == 0.0 && r.duration == 0.0 && r.currentPlaylistIndex == 0
    ensures r.playbackRetryCount == a.playbackRetryCount
    ensures Valid(a) ==> Valid(r)
  {
    Initial.(playbackRetryCount := a.playbackRetryCount)
  }
}

=== FILE: auth_flow.dfy ===
/** The login composable (spotify-clone/composables/useAuth.js): the random
    `state` value, the callback of the authorization-code grant (section 4.1
    of RFC 6749) with its `state` check against cross-site request forgery
    (section 10.12), and logout. Browser storage holds the saved state; the
    token endpoint and `/v1/me` are abstract replies. */
module AuthFlow {
  import opened Common
  import opened AuthStore

  const Upper: string := "ABCDEFGHIJKLMNOPQRSTUVWXYZ"
  const Lower: string := "abcdefghijklmnopqrstuvwxyz"
  const Digits: string := "0123456789"
  /** The 62 characters a random string is drawn from, in the source's order. */
  const Alphabet: string := Upper + Lower + Digits

  /** The index `Math.floor(Math.random() * chars.length)` can take. */
  type AlphabetIndex = i: int | 0 <= i < 62

  const DefaultStateLength: int := 16

  lemma AlphabetIsAlphanumeric()
    ensures |Alphabet| == 62
    ensures forall k :: 0 <= k < |Alphabet| ==> IsAlnum(Alphabet[k])
  {
    forall k | 0 <= k < |Alphabet|
      ensures IsAlnum(Alphabet[k])
    {
      if k < 26 {
        assert Alphabet[k] == Upper[k];
        assert 'A' <= Upper[k] <= 'Z';
      } else if k < 52 {
        assert Alphabet[k] == Lower[k - 26];
        assert 'a' <= Lower[k - 26] <= 'z';
      } else {
        assert Alphabet[k] == Digits[k - 52];
        assert '0' <= Digits[k - 52] <= '9';
      }
    }
  }

  /** `generateRandomString(length)`; `pick(i)` is the index drawn for the
      i-th character. A length of zero or less gives the empty string. */
  method GenerateRandomString(pick: nat -> AlphabetIndex, length: int := DefaultStateLength)
    returns (r: string)
    ensures |r| == (if length > 0 then length else 0)
    ensures forall i :: 0 <= i < |r| ==> r[i] == Alphabet[pick(i)]
    ensures forall i :: 0 <= i < |r| ==> IsAlnum(r[i])
  {
    AlphabetIsAlphanumeric();
    r := "";
    var i := 0;
    while i < length
      invariant 0 <= i <= (if length > 0 then length else 0)
      invariant |r| == i
      invariant forall k :: 0 <= k < i ==> r[k] == Alphabet[pick(k)]
    {
      r := r + [Alphabet[pick(i)]];
      i := i + 1;
    }
  }

  /** The query of the redirect back from the authorization server. */
  datatype CallbackQuery = CallbackQuery(state: Option<string>, code: Option<string>)

  /** Why `handleCallback` threw. `StateMissing` is the TypeError raised
      when the query has no `state` at all; `NavigationFailed` is a rejected
      `router.push('/')`, which runs inside the same `try`. */
  datatype CallbackError =
    | StateMissing
    | StateMismatch
    | CodeMissing
    | ExchangeFailed
    | AccessTokenMissing
    | ProfileFailed
    | NavigationFailed

  /** The text of the errors `handleCallback` raises itself; the others are
      rethrown from the runtime, `$fetch` or the router. */
  function Message(e: CallbackError): string
    requires e.StateMismatch? || e.CodeMissing? || e.AccessTokenMissing?
  {
    match e
    case StateMismatch => "State parameter mismatch - possible CSRF attack"
    case CodeMissing => "Authorization code missing from callback"
    case AccessTokenMissing => "Failed to retrieve access token"
  }

  /** The texts tell the errors apart. */
  lemma MessageIdentifiesError(e1: CallbackError, e2: CallbackError)
    requires e1.StateMismatch? || e1.CodeMissing? || e1.AccessTokenMissing?
    requires e2.StateMismatch? || e2.CodeMissing? || e2.AccessTokenMissing?
    requires Message(e1) == Message(e2)
    ensures e1 == e2
  {
    assert |Message(StateMismatch)| == 47;
    assert |Message(CodeMissing)| == 40;
    assert |Message(AccessTokenMissing)| == 31;
  }

  /** The outside world as one callback sees it: the answer of the token
      endpoint, the profile from `/v1/me` (None when that request fails),
      the clock, and whether the final navigation to `/` resolves. */
  datatype CallbackEnv = CallbackEnv(exchange: TokenReply, profile: Option<Profile>, now: int, navigated: bool)

  /** The outcome, the auth store after it, the saved state left in browser
      storage, and the code sent to the token endpoint (None if no exchange
      was attempted). */
  datatype Callback = Callback(
    result: Outcome<CallbackError>,
    auth: AuthState,
    savedState: Option<string>,
    exchangedCode: Option<string>)

  /** `route.query.state.toString() !== savedState`, reversed. */
  predicate StateMatches(query: CallbackQuery, saved: Option<string>) {
    query.state.Some? && saved.Some? && query.state.value == saved.value
  }

  /** Every check passes and every remote call succeeds. */
  predicate CallbackSucceeds(query: CallbackQuery, saved: Option<string>, env: CallbackEnv) {
    && StateMatches(query, saved)
    && Present(query.code)
    && env.exchange.TokenSuccess?
    && Present(env.exchange.accessToken)
    && env.profile.Some?
    && env.navigated
  }

  function HandleCallback(auth: AuthState, query: CallbackQuery, saved: Option<string>, env: CallbackEnv)
    : (r: Callback)
    ensures r.result.Pass? <==> CallbackSucceeds(query, saved, env)
    // any failure leaves the store cleared
    ensures r.result.Fail? ==> r.auth == ClearAuth(auth)
    // the state check comes first: on a mismatch nothing is removed or exchanged
    ensures !StateMatches(query, saved) ==>
      r.savedState == saved && r.exchangedCode.None?
      && r.result == Fail(if query.state.None? then StateMissing else StateMismatch)
    ensures StateMatches(query, saved) ==> r.savedState.None?
    // no code, no exchange
    ensures !Present(query.code) ==> r.exchangedCode.None?
    ensures r.exchangedCode.Some? ==> StateMatches(query, saved) && r.exchangedCode == query.code
    ensures StateMatches(query, saved) && Present(query.code) ==> r.exchangedCode == query.code
    // a token response without an access token is rejected
    ensures (StateMatches(query, saved) && Present(query.code) && env.exchange.TokenSuccess?
             && !Present(env.exchange.accessToken)) ==> r.result == Fail(AccessTokenMissing)
    // success: the access token stamped, the refresh token only if one came
    ensures r.result.Pass? ==>
      && r.auth.token == env.exchange.accessToken
      && r.auth.lastRefresh == Some(env.now)
      && r.auth.refreshToken ==
           (if Present(env.exchange.refreshToken) then env.exchange.refreshToken else auth.refreshToken)
      && r.auth.user == env.profile
      && IsAuthenticated(r.auth)
    // a rejected navigation after everything else succeeded still clears the store
    ensures CallbackSucceeds(query, saved, env.(navigated := true)) && !env.navigated ==>
      r.result == Fail(NavigationFailed) && r.auth == ClearAuth(auth) && r.exchangedCode == query.code
    ensures Stamped(r.auth)
  {
    if query.state.None? then Callback(Fail(StateMissing), ClearAuth(auth), saved, None)
    else if saved.None? || query.state.value != saved.value then
      Callback(Fail(StateMismatch), ClearAuth(auth), saved, None)
    else if !Present(query.code) then Callback(Fail(CodeMissing), ClearAuth(auth), None, None)
    else match env.exchange
      case TokenFailure => Callback(Fail(ExchangeFailed), ClearAuth(auth), None, query.code)
      case TokenSuccess(access, refresh) =>
        if !Present(access) then Callback(Fail(AccessTokenMissing), ClearAuth(auth), None, query.code)
        else
          var s1 := SetToken(auth, access, env.now);
          var s2 := if Present(refresh) then SetRefreshToken(s1, refresh) else s1;
          match env.profile
          case None => Callback(Fail(ProfileFailed), ClearAuth(s2), None, query.code)
          case Some(p) =>
            var s3 := SetUser(s2, Some(p));
            if env.navigated then Callback(Pass, s3, None, query.code)
            else Callback(Fail(NavigationFailed), ClearAuth(s3), None, query.code)
  }

  /** The state written at login is accepted when the authorization server
      echoes it back, and the callback consumes it: a second delivery of the
      same redirect fails the state check. */
  lemma EchoedStateAcceptedOnce(auth: AuthState, state: string, code: Option<string>, env: CallbackEnv)
    ensures var q := CallbackQuery(Some(state), code);
      var r := HandleCallback(auth, q, Some(state), env);
      && r.result != Fail(StateMismatch) && r.result != Fail(StateMissing)
      && HandleCallback(r.auth, q, r.savedState, env).result == Fail(StateMismatch)
  {
  }

  /** `logout`: the store is cleared (the redirect to /login is navigation). */
  function Logout(auth: AuthState): (r: AuthState)
    ensures !IsAuthenticated(r) && r.token.None? && r.refreshToken.None? && r.user.None? && r.lastRefresh.None?
  {
    ClearAuth(auth)
  }
}

=== FILE: auth_store.dfy ===
/** The authentication store (spotify-clone/stores/auth.js): the access
    token, the refresh token, the user profile and the time the access token
    was last stamped, with the refresh-token grant of section 6 of RFC 6749.
    The clock is a parameter (`now`, in milliseconds) and the token
    endpoint's answer is an abstract reply. */
module AuthStore {
  import opened Common

  /** The user profile returned by `/v1/me`; its contents are opaque here. */
  type Profile = string

  datatype AuthState = AuthState(
    token: Option<string>,
    refreshToken: Option<string>,
    user: Option<Profile>,
    lastRefresh: Option<int>)

  /** The answer of the token endpoint: a thrown error or non-2xx status,
      or a JSON body whose `access_token` and `refresh_token` may be absent. */
  datatype TokenReply =
    | TokenFailure
    | TokenSuccess(accessToken: Option<string>, refreshToken: Option<string>)

  /** A token older than this is refreshed before use (50 minutes). */
  const RefreshAfterMs: int := 50 * 60 * 1000
  /** A token older than this is no longer valid (60 minutes). */
  const LifetimeMs: int := 60 * 60 * 1000

  const Initial: AuthState := AuthState(None, None, None, None)

  /** Whenever an access token is held, the time it was stamped is held too. */
  predicate Stamped(s: AuthState) {
    s.token.Some? ==> s.lastRefresh.Some?
  }

  /** `setToken`: store the token and stamp it with the current time. */
  function SetToken(s: AuthState, newToken: Option<string>, now: int): (r: AuthState)
    ensures r.token == newToken && r.lastRefresh == Some(now)
    ensures r.refreshToken == s.refreshToken && r.user == s.user
    ensures Stamped(r)
  {
    s.(token := newToken, lastRefresh := Some(now))
  }

  /** `setRefreshToken`: replaces the refresh token only. */
  function SetRefreshToken(s: AuthState, newRefreshToken: Option<string>): (r: AuthState)
    ensures r.refreshToken == newRefreshToken
    ensures r.token == s.token && r.user == s.user && r.lastRefresh == s.lastRefresh
    ensures Stamped(s) ==> Stamped(r)
  {
    s.(refreshToken := newRefreshToken)
  }

  /** `setUser`: replaces the profile only. */
  function SetUser(s: AuthState, newUser: Option<Profile>): (r: AuthState)
    ensures r.user == newUser
    ensures r.token == s.token && r.refreshToken == s.refreshToken && r.lastRefresh == s.lastRefresh
    // the profile has no say in authentication
    ensures Stamped(s) ==> Stamped(r)
    ensures IsAuthenticated(r) == IsAuthenticated(s)
    ensures forall now :: IsTokenValid(r, now) == IsTokenValid(s, now)
    ensures forall now :: NeedsRefresh(r, now) == NeedsRefresh(s, now)
  {
    s.(user := newUser)
  }

  /** `clearAuth`: every field back to null, whatever the state was. */
  function ClearAuth(s: AuthState): (r: AuthState)
    ensures r.token.None? && r.refreshToken.None? && r.user.None? && r.lastRefresh.None?
    ensures !IsAuthenticated(r) && Stamped(r)
    ensures forall now :: !IsTokenValid(r, now)
  {
    Initial
  }

  /** Age of the access token; a missing stamp counts as time 0. */
  function TokenAge(s: AuthState, now: int): int {
    now - (if s.lastRefresh.Some? then s.lastRefresh.value else 0)
  }

  /** The condition under which `refreshTokenIfNeeded` contacts the token endpoint. */
  predicate NeedsRefresh(s: AuthState, now: int) {
    TokenAge(s, now) > RefreshAfterMs && Present(s.refreshToken)
  }

  /** The getter `isAuthenticated`: the access token is truthy. */
  predicate IsAuthenticated(s: AuthState) {
    Present(s.token)
  }

  /** The getter `isTokenValid`: a truthy token with a truthy stamp younger
      than an hour. */
  predicate IsTokenValid(s: AuthState, now: int) {
    && Present(s.token)
    && s.lastRefresh.Some? && s.lastRefresh.value != 0
    && now - s.lastRefresh.value < LifetimeMs
  }

  /** What `refreshTokenIfNeeded` did: its boolean result, the store after
      it, and whether it sent a request to the token endpoint. */
  datatype Refresh = Refresh(ok: bool, state: AuthState, requested: bool)

  /** `refreshTokenIfNeeded()`; `reply` is consulted only when a request is sent. */
  function RefreshTokenIfNeeded(s: AuthState, now: int, reply: TokenReply): (r: Refresh)
    ensures r.requested <==> NeedsRefresh(s, now)
    ensures !r.requested ==> r.ok && r.state == s
    ensures r.requested && reply.TokenFailure? ==> !r.ok && r.state == ClearAuth(s)
    ensures r.requested && reply.TokenSuccess? ==>
      && r.ok
      && r.state.token == reply.accessToken
      && r.state.lastRefresh == Some(now)
      && r.state.refreshToken == (if Present(reply.refreshToken) then reply.refreshToken else s.refreshToken)
      && r.state.user == s.user
    ensures !r.ok ==> !IsAuthenticated(r.state) && r.state.refreshToken.None?
    ensures Stamped(s) ==> Stamped(r.state)
  {
    if NeedsRefresh(s, now) then
      match reply
      case TokenFailure => Refresh(false, ClearAuth(s), true)
      case TokenSuccess(access, refresh) =>
        var s1 := SetToken(s, access, now);
        var s2 := if Present(refresh) then SetRefreshToken(s1, refresh) else s1;
        Refresh(true, s2, true)
    else Refresh(true, s, false)
  }

  /** A token that was never stamped counts as stale once the clock is past
      fifty minutes, so holding a refresh token forces a refresh. */
  lemma UnstampedTokenIsStale(s: AuthState, now: int, reply: TokenReply)
    requires s.lastRefresh.None? || s.lastRefresh == Some(0)
    requires now > RefreshAfterMs && Present(s.refreshToken)
    ensures RefreshTokenIfNeeded(s, now, reply).requested
  {
  }

  /** Between fifty and sixty minutes a token is both still valid and
      already due for refresh; the two thresholds overlap. */
  lemma RefreshWindowOverlapsValidity(s: AuthState, now: int)
    requires Present(s.token) && Present(s.refreshToken)
    requires s.lastRefresh.Some? && s.lastRefresh.value != 0
    requires RefreshAfterMs < now - s.lastRefresh.value < LifetimeMs
    ensures IsTokenValid(s, now) && NeedsRefresh(s, now)
  {
  }

  /** A token is never refreshed while it is younger than fifty minutes,
      and a valid token that is not due for refresh is kept as it is. */
  lemma FreshTokenUntouched(s: AuthState, now: int, reply: TokenReply)
    requires TokenAge(s, now) <= RefreshAfterMs
    ensures RefreshTokenIfNeeded(s, now, reply) == Refresh(true, s, false)
  {
  }

  /** A successful refresh that delivers an access token leaves the store
      authenticated with a valid token, provided the clock is past the epoch. */
  lemma SuccessfulRefreshIsValid(s: AuthState, now: int, access: string, refresh: Option<string>)
    requires NeedsRefresh(s, now) && access != "" && now != 0
    ensures var r := RefreshTokenIfNeeded(s, now, TokenSuccess(Some(access), refresh));
      r.ok && IsAuthenticated(r.state) && IsTokenValid(r.state, now) && !NeedsRefresh(r.state, now)
  {
  }

  /** A valid token is always an authenticated one younger than an hour. */
  lemma ValidImpliesAuthenticated(s: AuthState, now: int)
    requires IsTokenValid(s, now)
    ensures IsAuthenticated(s) && TokenAge(s, now) < LifetimeMs
  {
  }
}

=== FILE: common.dfy ===
/** Values shared by the stores and composables of the Spotify clone:
    JavaScript's null-or-string fields, truthiness, the Fetch standard's
    `ok` range and the decimal rendering of a status inside a message. */
module Common {

  /** A field that may hold null (or be absent). */
  datatype Option<+T> = None | Some(value: T)

  /** Success, or failure carrying an error value. */
  datatype Outcome<+E> = Pass | Fail(error: E)

  /** JavaScript truthiness of a string-or-null field: null and "" are falsy. */
  predicate Present(f: Option<string>) {
    f.Some? && f.value != ""
  }

  /** `a || b` on two string-or-null fields: one of the two, truthy when
      either is, and the left one when it is truthy. */
  function Or(a: Option<string>, b: Option<string>): (r: Option<string>)
    ensures r == a || r == b
    ensures Present(r) <==> Present(a) || Present(b)
    ensures Present(a) ==> r == a
  {
    if Present(a) then a else b
  }

  /** `Response.ok` of the Fetch standard: the status lies in 200..299. */
  predicate IsOk(status: nat) {
    200 <= status <= 299
  }

  predicate IsDigit(c: char) {
    '0' <= c <= '9'
  }

  predicate IsAlnum(c: char) {
    'a' <= c <= 'z' || 'A' <= c <= 'Z' || IsDigit(c)
  }

  function DigitChar(d: nat): (c: char)
    requires d < 10
    ensures IsDigit(c) && c as int - '0' as int == d
  {
    ('0' as int + d) as char
  }

  /** How a template literal renders a non-negative integer, e.g. the
      status inside `Playback error: ${status}`. */
  function DecimalString(n: nat): (s: string)
    ensures |s| > 0
    ensures forall i :: 0 <= i < |s| ==> IsDigit(s[i])
    ensures |s| > 1 ==> s[0] != '0'
  {
    if n < 10 then [DigitChar(n)] else DecimalString(n / 10) + [DigitChar(n % 10)]
  }

  /** Reads a run of decimal digits back as a number. */
  function DecimalValue(s: string): nat
    requires forall i :: 0 <= i < |s| ==> IsDigit(s[i])
  {
    if s == [] then 0
    else
      assert IsDigit(s[|s| - 1]);
      DecimalValue(s[..|s| - 1]) * 10 + (s[|s| - 1] as int - '0' as int)
  }

  /** Reading the rendered status back yields the status: a message that
      carries a status determines it. */
  lemma {:induction false} DecimalRoundTrip(n: nat)
    ensures DecimalValue(DecimalString(n)) == n
  {
    if n >= 10 {
      var s := DecimalString(n);
      assert s[..|s| - 1] == DecimalString(n / 10);
      DecimalRoundTrip(n / 10);
    }
  }

  /** Two different statuses render differently. */
  lemma DecimalStringInjective(m: nat, n: nat)
    requires DecimalString(m) == DecimalString(n)
    ensures m == n
  {
    DecimalRoundTrip(m);
    DecimalRoundTrip(n);
  }
}

=== FILE: spotify_api.dfy ===
/** `fetchWithToken` (spotify-clone/composables/useSpotifyApi.js): refresh
    the token if it is stale, send the request with a bearer token, and on a
    401 refresh once more and re-send once. The request's URL and other
    options are passed through untouched and are not modelled; the headers
    of every request actually sent are recorded. */
module SpotifyApi {
  import opened Common
  import opened AuthStore

  type Headers = map<string, string>

  const AuthorizationHeader: string := "Authorization"

  /** What `fetch` produced: a rejection, or a response with its status. */
  datatype HttpReply = FetchRejected | HttpResponse(status: nat)

  /** Everything one call observes from outside, in the order it observes it:
      the clock and token endpoint for the pre-request refresh, the first
      response, then the clock and token endpoint for the refresh after a
      401, and the response to the re-sent request. */
  datatype ApiEnv = ApiEnv(
    start: int,
    preRefresh: TokenReply,
    first: HttpReply,
    afterFirst: int,
    retryRefresh: TokenReply,
    retry: HttpReply)

  /** The errors the composable throws; `NetworkError` is `fetch`'s own
      rejection, rethrown unchanged. */
  datatype ApiError = RefreshFailed | RefreshFailedAfter401 | RequestFailed(status: nat) | NetworkError

  function Message(e: ApiError): string
    requires !e.NetworkError?
  {
    match e
    case RefreshFailed => "Failed to refresh token"
    case RefreshFailedAfter401 => "Failed to refresh token after 401"
    case RequestFailed(status) => "API request failed: " + DecimalString(status)
  }

  /** The texts tell the errors apart, down to the failed request's status. */
  lemma MessageIdentifiesError(e1: ApiError, e2: ApiError)
    requires !e1.NetworkError? && !e2.NetworkError?
    requires Message(e1) == Message(e2)
    ensures e1 == e2
  {
    var prefix := "API request failed: ";
    assert |Message(RefreshFailed)| == 23;
    assert |Message(RefreshFailedAfter401)| == 33;
    assert Message(RefreshFailed)[0] == 'F' && Message(RefreshFailedAfter401)[0] == 'F';
    assert prefix[0] == 'A';
    if e1.RequestFailed? && e2.RequestFailed? {
      assert Message(e1)[|prefix|..] == DecimalString(e1.status);
      assert Message(e2)[|prefix|..] == DecimalString(e2.status);
      DecimalStringInjective(e1.status, e2.status);
    }
  }

  datatype CallResult = Returned(response: HttpReply) | Threw(error: ApiError)

  /** The outcome of one call, the auth store after it, the headers of each
      request sent (at most two), and how many times the store's
      `refreshTokenIfNeeded` was invoked. */
  datatype ApiCall = ApiCall(result: CallResult, auth: AuthState, sent: seq<Headers>, refreshCalls: nat)

  /** `Bearer ${authStore.token}`; a missing token renders as "null" (the
      source's `undefined`, after a token reply without `access_token`,
      would render as "undefined"; the model does not tell the two apart). */
  function Bearer(token: Option<string>): string {
    "Bearer " + (if token.Some? then token.value else "null")
  }

  /** The refresh that runs before any request. */
  function PreRefresh(auth: AuthState, env: ApiEnv): Refresh {
    RefreshTokenIfNeeded(auth, env.start, env.preRefresh)
  }

  /** The refresh after a 401: `refreshTokenIfNeeded(true)` takes no
      parameter, so the `true` is dropped and the staleness test applies. */
  function RetryRefresh(auth: AuthState, env: ApiEnv): Refresh {
    RefreshTokenIfNeeded(PreRefresh(auth, env).state, env.afterFirst, env.retryRefresh)
  }

  predicate IsUnauthorized(reply: HttpReply) {
    reply.HttpResponse? && reply.status == 401
  }

  predicate ReplyOk(reply: HttpReply) {
    reply.HttpResponse? && IsOk(reply.status)
  }

  function FetchWithToken(auth: AuthState, callerHeaders: Headers, env: ApiEnv): (r: ApiCall)
    // a failed pre-request refresh throws before anything is sent
    ensures !PreRefresh(auth, env).ok ==>
      r.result == Threw(RefreshFailed) && r.sent == [] && r.auth == PreRefresh(auth, env).state
    ensures PreRefresh(auth, env).ok ==> |r.sent| >= 1
    // never more than two requests and two refresh calls
    ensures |r.sent| <= 2 && 1 <= r.refreshCalls <= 2
    ensures r.refreshCalls == 2 <==> PreRefresh(auth, env).ok && IsUnauthorized(env.first)
    ensures |r.sent| == 2 <==>
      PreRefresh(auth, env).ok && IsUnauthorized(env.first) && RetryRefresh(auth, env).ok
    // first request: the store's bearer token unless the caller supplies one
    ensures |r.sent| >= 1 ==>
      && r.sent[0].Keys == callerHeaders.Keys + {AuthorizationHeader}
      && (forall h :: h in callerHeaders ==> r.sent[0][h] == callerHeaders[h])
      && (AuthorizationHeader !in callerHeaders ==>
            r.sent[0][AuthorizationHeader] == Bearer(PreRefresh(auth, env).state.token))
    // re-send: the same headers with the refreshed bearer token, caller's overridden
    ensures |r.sent| == 2 ==>
      r.sent[1] == r.sent[0][AuthorizationHeader := Bearer(r.auth.token)]
      && r.auth == RetryRefresh(auth, env).state
    // a failed refresh after the 401 throws without re-sending
    ensures PreRefresh(auth, env).ok && IsUnauthorized(env.first) && !RetryRefresh(auth, env).ok ==>
      r.result == Threw(RefreshFailedAfter401) && !IsAuthenticated(r.auth)
    // what is returned is an ok response, the last one received, unchanged
    ensures r.result.Returned? ==>
      ReplyOk(r.result.response) && r.result.response == (if |r.sent| == 2 then env.retry else env.first)
    ensures |r.sent| == 1 && ReplyOk(env.first) ==> r.result == Returned(env.first)
    ensures |r.sent| == 2 && ReplyOk(env.retry) ==> r.result == Returned(env.retry)
    // a non-ok status that is not retried, or a non-ok retry, is reported with its status
    ensures PreRefresh(auth, env).ok && env.first.HttpResponse? && env.first.status != 401
            && !IsOk(env.first.status) ==>
      r.result == Threw(RequestFailed(env.first.status)) && |r.sent| == 1
    ensures |r.sent| == 2 && env.retry.HttpResponse? && !IsOk(env.retry.status) ==>
      r.result == Threw(RequestFailed(env.retry.status))
    // a rejected `fetch` is rethrown unchanged, on either request
    ensures PreRefresh(auth, env).ok && env.first.FetchRejected? ==>
      r.result == Threw(NetworkError) && |r.sent| == 1
    ensures |r.sent| == 2 && env.retry.FetchRejected? ==> r.result == Threw(NetworkError)
    ensures Stamped(auth) ==> Stamped(r.auth)
  {
    var pre := PreRefresh(auth, env);
    if !pre.ok then ApiCall(Threw(RefreshFailed), pre.state, [], 1)
    else
      var headers := map[AuthorizationHeader := Bearer(pre.state.token)] + callerHeaders;
      match env.first
      case FetchRejected => ApiCall(Threw(NetworkError), pre.state, [headers], 1)
      case HttpResponse(status) =>
        if status == 401 then
          var again := RetryRefresh(auth, env);
          if !again.ok then ApiCall(Threw(RefreshFailedAfter401), again.state, [headers], 2)
          else
            var retried := headers[AuthorizationHeader := Bearer(again.state.token)];
            var sent := [headers, retried];
            match env.retry
            case FetchRejected => ApiCall(Threw(NetworkError), again.state, sent, 2)
            case HttpResponse(retryStatus) =>
              if IsOk(retryStatus) then ApiCall(Returned(env.retry), again.state, sent, 2)
              else ApiCall(Threw(RequestFailed(retryStatus)), again.state, sent, 2)
        else if IsOk(status) then ApiCall(Returned(env.first), pre.state, [headers], 1)
        else ApiCall(Threw(RequestFailed(status)), pre.state, [headers], 1)
  }

  /** Because the `true` passed after a 401 is ignored, a token that is still
      younger than fifty minutes is not refreshed: the re-sent request
      carries the very bearer token that was just rejected, and when the
      caller supplied no Authorization header the two requests are equal. */
  lemma RetryResendsRejectedToken(auth: AuthState, callerHeaders: Headers, env: ApiEnv)
    requires PreRefresh(auth, env).ok && IsUnauthorized(env.first)
    requires TokenAge(PreRefresh(auth, env).state, env.afterFirst) <= RefreshAfterMs
    ensures var r := FetchWithToken(auth, callerHeaders, env);
      && |r.sent| == 2
      && r.sent[1][AuthorizationHeader] == Bearer(PreRefresh(auth, env).state.token)
      && (AuthorizationHeader !in callerHeaders ==> r.sent[1] == r.sent[0])
  {
    var r := FetchWithToken(auth, callerHeaders, env);
    assert RetryRefresh(auth, env).state == PreRefresh(auth, env).state;
    if AuthorizationHeader !in callerHeaders {
      assert r.sent[1] == r.sent[0];
    }
  }

  /** If the clock does not move between the two refresh calls, the refresh
      after a 401 never contacts the token endpoint: either the first one
      just stamped the token, or nothing could be refreshed at all. */
  lemma SecondRefreshNeedsElapsedTime(auth: AuthState, env: ApiEnv)
    requires PreRefresh(auth, env).ok && env.afterFirst == env.start
    ensures !RetryRefresh(auth, env).requested
    ensures RetryRefresh(auth, env).state == PreRefresh(auth, env).state
  {
  }
}

=== FILE: track_uri.dfy ===
/** How `playTrack` turns a track-like record into a `spotify:track:` URI
    (spotify-clone/stores/audio.js:183-263). The record's shape varies with
    where it came from (a search result, a playlist item, a saved track), so
    the store probes its fields in a fixed order. */
module TrackUri {
  import opened Common

  // ---------------------------------------------------------------------
  // `s.match(/<key>([a-zA-Z0-9]+)/)[1]` for a literal key such as "track/"
  // ---------------------------------------------------------------------

  /** The pattern (the key followed by at least one alphanumeric) matches
      at position i. */
  predicate MatchesAt(s: string, key: string, i: nat) {
    i + |key| < |s| && s[i..i + |key|] == key && IsAlnum(s[i + |key|])
  }

  /** i is the leftmost position where the pattern matches. */
  predicate LeftmostMatchAt(s: string, key: string, i: nat) {
    MatchesAt(s, key, i) && forall k: nat :: k < i ==> !MatchesAt(s, key, k)
  }

  /** c is the maximal run of alphanumerics starting at j. */
  predicate MaximalRunAt(s: string, j: nat, c: string) {
    && |c| > 0
    && j + |c| <= |s|
    && s[j..j + |c|] == c
    && (forall k :: 0 <= k < |c| ==> IsAlnum(c[k]))
    && (j + |c| == |s| || !IsAlnum(s[j + |c|]))
  }

  /** c is what a JavaScript regular expression captures: the greedy group
      of the leftmost match. */
  predicate CapturedAt(s: string, key: string, i: nat, c: string) {
    LeftmostMatchAt(s, key, i) && MaximalRunAt(s, i + |key|, c)
  }

  /** Length of the alphanumeric run that starts at j. */
  function AlnumRun(s: string, j: nat): (n: nat)
    requires j <= |s|
    ensures j + n <= |s|
    ensures forall k :: j <= k < j + n ==> IsAlnum(s[k])
    ensures j + n == |s| || !IsAlnum(s[j + n])
    decreases |s| - j
  {
    if j < |s| && IsAlnum(s[j]) then 1 + AlnumRun(s, j + 1) else 0
  }

  /** The first position at or after `from` where the pattern matches. */
  function LeftmostMatch(s: string, key: string, from: nat): (r: Option<nat>)
    requires from <= |s|
    ensures r.Some? ==> from <= r.value && MatchesAt(s, key, r.value)
    ensures r.Some? ==> forall k: nat :: from <= k < r.value ==> !MatchesAt(s, key, k)
    ensures r.None? ==> forall k: nat :: from <= k ==> !MatchesAt(s, key, k)
    decreases |s| - from
  {
    if from + |key| >= |s| then None
    else if MatchesAt(s, key, from) then Some(from)
    else LeftmostMatch(s, key, from + 1)
  }

  /** The group captured by `/<key>([a-zA-Z0-9]+)/`, or None when the
      expression does not match. */
  function Capture(s: string, key: string): (r: Option<string>)
    ensures r.None? <==> forall i: nat :: !MatchesAt(s, key, i)
    ensures r.Some? ==> exists i: nat :: CapturedAt(s, key, i, r.value)
  {
    match LeftmostMatch(s, key, 0)
    case None => None
    case Some(i) =>
      var j := i + |key|;
      var c := s[j..j + AlnumRun(s, j)];
      assert CapturedAt(s, key, i, c);
      Some(c)
  }

  /** The capture is the only string with that description: whatever is the
      greedy group of the leftmost match is what `Capture` returns. */
  lemma CaptureUnique(s: string, key: string, i: nat, c: string)
    requires CapturedAt(s, key, i, c)
    ensures Capture(s, key) == Some(c)
  {
    var r := Capture(s, key);
    assert r.Some? by {
      assert MatchesAt(s, key, i);
    }
    var i': nat :| CapturedAt(s, key, i', r.value);
    assert i' == i by {
      if i' < i {
        assert false;
      } else if i < i' {
        assert false;
      }
    }
    RunUnique(s, i + |key|, c, r.value);
  }

  lemma RunUnique(s: string, j: nat, c: string, d: string)
    requires MaximalRunAt(s, j, c) && MaximalRunAt(s, j, d)
    ensures c == d
  {
    if |c| < |d| {
      SliceIndex(s, j, d, |c|);
      assert false;
    } else if |d| < |c| {
      SliceIndex(s, j, c, |d|);
      assert false;
    } else {
      assert c == s[j..j + |c|];
    }
  }

  lemma SliceIndex(s: string, j: nat, d: string, k: nat)
    requires j + |d| <= |s| && s[j..j + |d|] == d && k < |d|
    ensures s[j + k] == d[k]
  {
    assert s[j..j + |d|][k] == s[j + k];
  }

  // ---------------------------------------------------------------------
  // Track-like records
  // ---------------------------------------------------------------------

  /** The fields of a track-like object that `playTrack` reads; each is
      null when absent. `spotifyUrl` is `external_urls?.spotify` and
      `track` the optional wrapper field of a playlist item. */
  datatype TrackLike = TrackLike(
    spotifyUrl: Option<string>,
    uri: Option<string>,
    id: Option<string>,
    href: Option<string>,
    name: Option<string>,
    track: Option<TrackLike>)

  const TrackUriPrefix: string := "spotify:track:"
  const UrlKey: string := "track/"
  const HrefKey: string := "tracks/"

  /** Which field the URI came from, in the order the store tries them. */
  datatype UriSource =
    | ExternalUrl | DirectUri | Id | Href
    | NestedUri | NestedId | NestedExternalUrl

  datatype Resolution = Resolution(source: UriSource, uri: string)

  /** `rawTrack.track || rawTrack`: a playlist item is unwrapped once. */
  function Normalize(raw: TrackLike): TrackLike {
    if raw.track.Some? then raw.track.value else raw
  }

  function UrlCapture(url: Option<string>, key: string): Option<string> {
    if Present(url) then Capture(url.value, key) else None
  }

  /** The store's probe sequence as written: a chain of `if (!uri && …)`
      over the normalised record, then the nested `.track` fallbacks. */
  function Resolve(raw: TrackLike): (r: Option<Resolution>)
    ensures r.Some? ==> r.value.uri != ""
  {
    var n := Normalize(raw);
    var fromUrl := UrlCapture(n.spotifyUrl, UrlKey);
    var fromHref := UrlCapture(n.href, HrefKey);
    if fromUrl.Some? then Some(Resolution(ExternalUrl, TrackUriPrefix + fromUrl.value))
    else if Present(n.uri) then Some(Resolution(DirectUri, n.uri.value))
    else if Present(n.id) then Some(Resolution(Id, TrackUriPrefix + n.id.value))
    else if fromHref.Some? then Some(Resolution(Href, TrackUriPrefix + fromHref.value))
    else ResolveNested(n)
  }

  /** The last resort: the normalised record's own `.track` field, probed
      as uri, then id, then web link (no href at this level). */
  function ResolveNested(n: TrackLike): (r: Option<Resolution>)
    ensures r.Some? ==> r.value.uri != ""
  {
    if n.track.None? then None
    else
      var nested := n.track.value;
      if Present(nested.uri) then Some(Resolution(NestedUri, nested.uri.value))
      else if Present(nested.id) then Some(Resolution(NestedId, TrackUriPrefix + nested.id.value))
      else
        var fromNestedUrl := UrlCapture(nested.spotifyUrl, UrlKey);
        if fromNestedUrl.Some? then
          Some(Resolution(NestedExternalUrl, TrackUriPrefix + fromNestedUrl.value))
        else None
  }

  // ---------------------------------------------------------------------
  // Reference definition: each source on its own, then first success
  // ---------------------------------------------------------------------

  /** The order in which sources are consulted. */
  const Priority: seq<UriSource> :=
    [ExternalUrl, DirectUri, Id, Href, NestedUri, NestedId, NestedExternalUrl]

  /** What a single source would yield for the normalised record, judged
      without looking at any other source. */
  function Candidate(n: TrackLike, src: UriSource): Option<string> {
    match src
    case ExternalUrl =>
      var c := UrlCapture(n.spotifyUrl, UrlKey);
      if c.Some? then Some(TrackUriPrefix + c.value) else None
    case DirectUri => if Present(n.uri) then n.uri else None
    case Id => if Present(n.id) then Some(TrackUriPrefix + n.id.value) else None
    case Href =>
      var c := UrlCapture(n.href, HrefKey);
      if c.Some? then Some(TrackUriPrefix + c.value) else None
    case NestedUri =>
      if n.track.Some? && Present(n.track.value.uri) then n.track.value.uri else None
    case NestedId =>
      if n.track.Some? && Present(n.track.value.id) then Some(TrackUriPrefix + n.track.value.id.value)
      else None
    case NestedExternalUrl =>
      if n.track.Some? then
        var c := UrlCapture(n.track.value.spotifyUrl, UrlKey);
        if c.Some? then Some(TrackUriPrefix + c.value) else None
      else None
  }

  /** The first source in `srcs` that yields a URI. */
  function FirstCandidate(n: TrackLike, srcs: seq<UriSource>): (r: Option<Resolution>)
    ensures r.Some? ==> exists k :: 0 <= k < |srcs| && srcs[k] == r.value.source
    // no earlier source yields
    ensures r.Some? ==> exists k :: (0 <= k < |srcs| && srcs[k] == r.value.source
                                     && forall j :: 0 <= j < k ==> Candidate(n, srcs[j]).None?)
    ensures r.Some? ==> Candidate(n, r.value.source) == Some(r.value.uri)
    ensures r.None? <==> forall k :: 0 <= k < |srcs| ==> Candidate(n, srcs[k]).None?
  {
    if srcs == [] then None
    else
      var c := Candidate(n, srcs[0]);
      if c.Some? then Some(Resolution(srcs[0], c.value))
      else
        var r := FirstCandidate(n, srcs[1..]);
        assert forall k :: 1 <= k < |srcs| ==> srcs[k] == srcs[1..][k - 1];
        r
  }

  /** A source that yields nothing is skipped. */
  lemma SkipFailedSource(n: TrackLike, srcs: seq<UriSource>)
    requires |srcs| > 0 && Candidate(n, srcs[0]).None?
    ensures FirstCandidate(n, srcs) == FirstCandidate(n, srcs[1..])
  {
  }

  /** A source that yields is the one taken. */
  lemma TakeYieldingSource(n: TrackLike, srcs: seq<UriSource>)
    requires |srcs| > 0 && Candidate(n, srcs[0]).Some?
    ensures FirstCandidate(n, srcs) == Some(Resolution(srcs[0], Candidate(n, srcs[0]).value))
  {
  }

  /** The probe chain is exactly "first source in priority order that
      yields": the nested fallbacks are only consulted when every field of
      the normalised record fails. */
  lemma ResolveFollowsPriority(raw: TrackLike)
    ensures Resolve(raw) == FirstCandidate(Normalize(raw), Priority)
  {
    var n := Normalize(raw);
    ResolveCases(raw);
    PriorityCases(n);
    if Candidate(n, ExternalUrl).None? && Candidate(n, DirectUri).None?
       && Candidate(n, Id).None? && Candidate(n, Href).None? {
      NestedFollowsPriority(n);
    }
  }

  /** The four top-level links of the chain, and the fall-through. */
  lemma ResolveCases(raw: TrackLike)
    ensures var n := Normalize(raw);
      && (Candidate(n, ExternalUrl).Some? ==>
            Resolve(raw) == Some(Resolution(ExternalUrl, Candidate(n, ExternalUrl).value)))
      && (Candidate(n, ExternalUrl).None? && Candidate(n, DirectUri).Some? ==>
            Resolve(raw) == Some(Resolution(DirectUri, Candidate(n, DirectUri).value)))
      && (Candidate(n, ExternalUrl).None? && Candidate(n, DirectUri).None? && Candidate(n, Id).Some? ==>
            Resolve(raw) == Some(Resolution(Id, Candidate(n, Id).value)))
      && (Candidate(n, ExternalUrl).None? && Candidate(n, DirectUri).None? && Candidate(n, Id).None?
          && Candidate(n, Href).Some? ==>
            Resolve(raw) == Some(Resolution(Href, Candidate(n, Href).value)))
      && (Candidate(n, ExternalUrl).None? && Candidate(n, DirectUri).None? && Candidate(n, Id).None?
          && Candidate(n, Href).None? ==>
            Resolve(raw) == ResolveNested(n))
  {
  }

  /** The same table for the first yielding source of `Priority`. */
  lemma PriorityCases(n: TrackLike)
    ensures
      && (Candidate(n, ExternalUrl).Some? ==>
            FirstCandidate(n, Priority) == Some(Resolution(ExternalUrl, Candidate(n, ExternalUrl).value)))
      && (Candidate(n, ExternalUrl).None? && Candidate(n, DirectUri).Some? ==>
            FirstCandidate(n, Priority) == Some(Resolution(DirectUri, Candidate(n, DirectUri).value)))
      && (Candidate(n, ExternalUrl).None? && Candidate(n, DirectUri).None? && Candidate(n, Id).Some? ==>
            FirstCandidate(n, Priority) == Some(Resolution(Id, Candidate(n, Id).value)))
      && (Candidate(n, ExternalUrl).None? && Candidate(n, DirectUri).None? && Candidate(n, Id).None?
          && Candidate(n, Href).Some? ==>
            FirstCandidate(n, Priority) == Some(Resolution(Href, Candidate(n, Href).value)))
      && (Candidate(n, ExternalUrl).None? && Candidate(n, DirectUri).None? && Candidate(n, Id).None?
          && Candidate(n, Href).None? ==>
            FirstCandidate(n, Priority) == FirstCandidate(n, NestedPriority))
  {
    var p1 := [DirectUri, Id, Href, NestedUri, NestedId, NestedExternalUrl];
    var p2 := [Id, Href, NestedUri, NestedId, NestedExternalUrl];
    var p3 := [Href, NestedUri, NestedId, NestedExternalUrl];
    assert Priority[1..] == p1 && p1[1..] == p2 && p2[1..] == p3;
    assert p3[1..] == NestedPriority;
    if Candidate(n, ExternalUrl).Some? {
      TakeYieldingSource(n, Priority);
    } else {
      SkipFailedSource(n, Priority);
      if Candidate(n, DirectUri).Some? {
        TakeYieldingSource(n, p1);
      } else {
        SkipFailedSource(n, p1);
        if Candidate(n, Id).Some? {
          TakeYieldingSource(n, p2);
        } else {
          SkipFailedSource(n, p2);
          if Candidate(n, Href).Some? {
            TakeYieldingSource(n, p3);
          } else {
            SkipFailedSource(n, p3);
          }
        }
      }
    }
  }

  const NestedPriority: seq<UriSource> := [NestedUri, NestedId, NestedExternalUrl]

  lemma NestedFollowsPriority(n: TrackLike)
    ensures ResolveNested(n) == FirstCandidate(n, NestedPriority)
  {
    var p5 := [NestedId, NestedExternalUrl];
    var p6 := [NestedExternalUrl];
    assert NestedPriority[1..] == p5 && p5[1..] == p6 && p6[1..] == [];
    if Candidate(n, NestedUri).Some? {
      TakeYieldingSource(n, NestedPriority);
      return;
    }
    SkipFailedSource(n, NestedPriority);
    if Candidate(n, NestedId).Some? {
      TakeYieldingSource(n, p5);
      return;
    }
    SkipFailedSource(n, p5);
    if Candidate(n, NestedExternalUrl).Some? {
      TakeYieldingSource(n, p6);
      return;
    }
    SkipFailedSource(n, p6);
  }

  /** Resolution fails exactly when no source yields, and then the store
      reports 'Could not determine track URI'. */
  lemma ResolveFailsIffNoSource(raw: TrackLike)
    ensures Resolve(raw).None? <==>
      forall k :: 0 <= k < |Priority| ==> Candidate(Normalize(raw), Priority[k]).None?
  {
    ResolveFollowsPriority(raw);
  }

  /** What a resolved URI looks like: an explicit `uri` field is passed
      through verbatim; everything else is `spotify:track:` followed by the
      id field or by the alphanumeric id captured from a URL. */
  lemma ResolvedUriShape(raw: TrackLike)
    requires Resolve(raw).Some?
    ensures var r := Resolve(raw).value; var n := Normalize(raw);
      && (r.source == DirectUri ==> r.uri == n.uri.value)
      && (r.source == NestedUri ==> n.track.Some? && r.uri == n.track.value.uri.value)
      && (r.source == Id ==> r.uri == TrackUriPrefix + n.id.value)
      && (r.source == NestedId ==> n.track.Some? && r.uri == TrackUriPrefix + n.track.value.id.value)
      && (r.source in {ExternalUrl, Href, NestedExternalUrl} ==>
            exists id :: r.uri == TrackUriPrefix + id && |id| > 0 &&
              forall k :: 0 <= k < |id| ==> IsAlnum(id[k]))
  {
    var r := Resolve(raw).value;
    var n := Normalize(raw);
    if r.source == ExternalUrl {
      var c := Capture(n.spotifyUrl.value, UrlKey).value;
      var i :| CapturedAt(n.spotifyUrl.value, UrlKey, i, c);
      assert r.uri == TrackUriPrefix + c;
    } else if r.source == Href {
      var c := Capture(n.href.value, HrefKey).value;
      var i :| CapturedAt(n.href.value, HrefKey, i, c);
      assert r.uri == TrackUriPrefix + c;
    } else if r.source == NestedExternalUrl {
      var u := n.track.value.spotifyUrl.value;
      var c := Capture(u, UrlKey).value;
      var i :| CapturedAt(u, UrlKey, i, c);
      assert r.uri == TrackUriPrefix + c;
    }
  }

  /** A web link `…/track/<id>` whose first `track/`-plus-alphanumeric
      occurrence is that one resolves to `spotify:track:<id>`, whatever
      `uri` and `id` the record also carries. */
  lemma ExternalUrlWins(raw: TrackLike, pre: string, id: string, post: string)
    requires Normalize(raw).spotifyUrl == Some(pre + UrlKey + id + post)
    requires |id| > 0 && forall k :: 0 <= k < |id| ==> IsAlnum(id[k])
    requires post == [] || !IsAlnum(post[0])
    requires forall k: nat :: k < |pre| ==> !MatchesAt(pre + UrlKey + id + post, UrlKey, k)
    ensures Resolve(raw) == Some(Resolution(ExternalUrl, TrackUriPrefix + id))
  {
    var s := pre + UrlKey + id + post;
    var i := |pre|;
    var j := i + |UrlKey|;
    assert s[i..j] == UrlKey;
    assert s[j..j + |id|] == id;
    assert s[j] == id[0];
    assert j + |id| < |s| ==> s[j + |id|] == post[0];
    assert CapturedAt(s, UrlKey, i, id);
    CaptureUnique(s, UrlKey, i, id);
  }

  /** Without a usable web link, an explicit `uri` beats an `id`. */
  lemma UriBeatsId(raw: TrackLike)
    requires UrlCapture(Normalize(raw).spotifyUrl, UrlKey).None?
    requires Present(Normalize(raw).uri)
    ensures Resolve(raw) == Some(Resolution(DirectUri, Normalize(raw).uri.value))
  {
  }

  const ExampleWebLink: string := "https://open.spotify.com/track/abc123"

  /** A web link such as https://open.spotify.com/track/abc123 resolves to
      spotify:track:abc123, whatever else the record carries. */
  lemma WebLinkExample(raw: TrackLike)
    requires raw.track.None? && raw.spotifyUrl == Some(ExampleWebLink)
    ensures Resolve(raw) == Some(Resolution(ExternalUrl, "spotify:track:abc123"))
  {
    var pre, id := "https://open.spotify.com/", "abc123";
    ExampleHasNoEarlierMatch();
    assert ExampleWebLink == pre + UrlKey + id + "";
    assert TrackUriPrefix + id == "spotify:track:abc123";
    ExternalUrlWins(raw, pre, id, "");
  }

  /** No `track/` occurrence starts inside "https://open.spotify.com/". */
  lemma ExampleHasNoEarlierMatch()
    ensures forall k: nat :: k < 25 ==> !MatchesAt(ExampleWebLink, UrlKey, k)
  {
    var s := ExampleWebLink;
    forall k: nat | k < 25
      ensures !MatchesAt(s, UrlKey, k)
    {
      if k < 3 {
        assert s[k + 1] != 'r';
      } else if k < 16 {
        assert s[k] != 't';
      } else if k == 16 {
        assert s[k + 1] != 'r';
      } else {
        assert s[k] != 't';
      }
      NotTrackKeyAt(s, k);
    }
  }

  lemma NotTrackKeyAt(s: string, k: nat)
    requires k + 1 < |s| && !(s[k] == 't' && s[k + 1] == 'r')
    ensures !MatchesAt(s, UrlKey, k)
  {
    if k + |UrlKey| < |s| {
      assert s[k..k + |UrlKey|][0] == s[k] && s[k..k + |UrlKey|][1] == s[k + 1];
    }
  }

  /** A playlist item `{ track: t }` resolves exactly as its track `t` would
      on its own, whatever fields the item itself carries; only one level is
      unwrapped, so the item's nested track is `t.track`. */
  lemma PlaylistItemResolvesAsTrack(raw: TrackLike, t: TrackLike)
    requires raw.track == Some(t) && t.track.None?
    ensures Resolve(raw) == Resolve(t)
    ensures Resolve(raw).None? || Resolve(raw).value.source !in {NestedUri, NestedId, NestedExternalUrl}
  {
  }

  /** A resolved URI is a fixed point: a record carrying only that URI
      resolves to the same URI again. */
  lemma ResolveIdempotent(raw: TrackLike)
    requires Resolve(raw).Some?
    ensures var u := Resolve(raw).value.uri;
      Resolve(TrackLike(None, Some(u), None, None, None, None)) == Some(Resolution(DirectUri, u))
  {
  }
}
